=== FILE: README.md ===
# Alluxio metadata sync and positioned reads, modelled in Dafny

This project models two pieces of Alluxio.

The first is the metadata syncer of the master, `MetadataSyncer`. It reconciles Alluxio's inode tree with a listing from the under file system (UFS). `sync` handles the sync root first. Unless the UFS root is a file, `updateMetadata` then walks two cursors in lock-step: the inode children of the root and the UFS listing, both ordered by `String.compareTo`. For each pair of cursor heads, `syncOne` takes one of three branches:

- **create**: the name is only in the UFS. A file or directory is created from the UFS status.
- **delete**: the name is only in Alluxio. The inode is deleted recursively and its subtree is skipped in the cursor.
- **reconcile**: the name is on both sides. A fingerprint is computed and the sync plan is applied: nothing, a metadata update, or a delete followed by a re-creation. As written, the re-creation is always a file, so replacing an entry by a UFS directory fails after the delete (see "## Findings"); the model keeps that behaviour in `syncOne` and gives the corrected dispatch alongside.

A resume point (`startFrom`) makes the merge skip every entry named at or before it. The model also covers how creation and update contexts are built:

- the shared-mount mode rule;
- the TTL choice under the ignore-TTL flag;
- the unknown-block-size failure;
- the owner/group options of `updateInodeMetadata`, including the group written into the owner field.

The second is the default `positionRead` of `PositionReader`. It checks its arguments in a fixed order, answers a zero-length read itself, and hands every other read to the implementation's `positionReadInternal`. The byte-array overloads wrap the array in a target buffer at offset 0 or at the given offset.

Modules:

- `Wrappers`: `Option`, `Result`.
- `JavaString`: Java's `String.compareTo` and its order facts.
- `Modes`: the owner/group/other bit triples of a `Mode`.
- `SyncModel`: statuses, inodes, contexts, the oracle environment, the mutation log.
- `Mutations`: the four calls into the file system master.
- `SyncOneStep`: `syncOne`.
- `Merge`: the resume skip, the merge loop, and the merge's schedule of visits.
- `MergeProperties`: totality, skip correctness and resumption over whole listings.
- `Syncer`: `sync`.
- `PositionReader`.

Calls into collaborators whose code is not part of this model are fields of an `Env` value, which the model never constrains:

- `Fingerprint.create`;
- `UfsSyncUtils.computeSyncPlan`;
- `MountTable.resolve`, `isMountPoint` and `containsMountPoint`;
- the `mIgnoreTTL` configuration flag.

The four file system master calls (`createCompleteFileInternalForMetadataSync`, `createDirectoryInternal`, `deleteInternal`, `setAttributeSingleFile`) and the inode tree's `setDirectChildrenLoaded` are recorded in order as a log of `Mutation` values, each with the context it was given. A thrown exception is an `Err` that carries the calls completed before it.

Further behaviours the model makes explicit:

- `syncOne` with both heads absent: the source guards this with a Java `assert`, which is disabled by default, so the model fails with a null dereference.
- `sync` with no root inode reaches `inodeSyncRoot.asDirectory()` and also fails with a null dereference. That call happens after the merge, even when the root step has just created the root.
- The root's cursor entry is named with a leading separator (`"/" + name`) and compared with the UFS root status's name. When that name starts with a character sorting after `/`, the root step therefore takes the delete branch (`Syncer.RootEntrySortsFirst`). Which name `getStatus` reports is not part of this model.

## Model

| member | source | states |
|---|---|---|
| JavaString.CompareTo | core/server/master/src/main/java/alluxio/master/file/metasync/MetadataSyncer.java:249 | Java `String.compareTo`, used to order the cursor heads and to test the resume point (lines 187, 191): a name compared with an extension of itself, either way round, yields the difference of the lengths |
| JavaString.CompareToFirstDifference | core/server/master/src/main/java/alluxio/master/file/metasync/MetadataSyncer.java:249 | where two names first differ at some index, `compareTo` is the difference of their characters there |
| JavaString.CompareToZeroIffEqual | core/server/master/src/main/java/alluxio/master/file/metasync/MetadataSyncer.java:247-249 | `compareTo` returns zero exactly for equal names, so the reconcile branch is taken exactly on equal names |
| JavaString.CompareToAntisymmetric | core/server/master/src/main/java/alluxio/master/file/metasync/MetadataSyncer.java:247-249 | swapping the operands of `compareTo` negates it, so "inode above UFS" is "UFS below inode" |
| JavaString.LessTransitive | core/server/master/src/main/java/alluxio/master/file/metasync/MetadataSyncer.java:186-194 | the order the cursors are sorted by is transitive |
| JavaString.Trichotomy | core/server/master/src/main/java/alluxio/master/file/metasync/MetadataSyncer.java:252-272 | of two names exactly one is lower, or they are equal: the three branches of `syncOne` are exhaustive and exclusive |
| Modes.FromShort | core/server/master/src/main/java/alluxio/master/file/metasync/MetadataSyncer.java:372-373 | `new Mode(short)` keeps exactly the low nine bits of the UFS mode as owner, group and other triples |
| Modes.FromShortToShort | core/server/master/src/main/java/alluxio/master/file/metasync/MetadataSyncer.java:372-379 | a mode written as a number and read back is the same mode |
| Modes.ShareWithOthers | core/server/master/src/main/java/alluxio/master/file/metasync/MetadataSyncer.java:376-378 | on a shared mount each other-bit becomes other-bit OR owner-bit; owner and group bits are kept; unshared, the mode is unchanged |
| Modes.ShareIdempotent | core/server/master/src/main/java/alluxio/master/file/metasync/MetadataSyncer.java:413-415 | applying the shared rule twice is applying it once |
| Mutations.FileCommonOptions | core/server/master/src/main/java/alluxio/master/file/metasync/MetadataSyncer.java:361-366 | with the ignore-TTL flag a file gets the no-TTL option: TTL -1 and the TTL action the unset field reads as; without it, the context's TTL and action |
| Mutations.TtlDiffersOnlyWhenIgnored | core/server/master/src/main/java/alluxio/master/file/metasync/MetadataSyncer.java:361-366 | a file and a directory created by one sync get different TTLs exactly when the flag is set and the context TTL is not -1, because directories always take the context TTL |
| Mutations.DeleteFile | core/server/master/src/main/java/alluxio/master/file/metasync/MetadataSyncer.java:301-312 | the delete is recursive, Alluxio-only, unchecked and a metadata load, on the locked path |
| Mutations.CreationMode | core/server/master/src/main/java/alluxio/master/file/metasync/MetadataSyncer.java:372-379 | the created mode relates to the UFS mode by the shared-mount rule, bit by bit |
| Mutations.CreateInodeFileMetadata | core/server/master/src/main/java/alluxio/master/file/metasync/MetadataSyncer.java:338-387 | a directory status fails the file-status cast; an unknown block size fails with no creation; otherwise one non-recursive, write-through creation with the UFS block size, owner, group, xattrs, modification time, shared-rule mode and the TTL choice; succeeds exactly for files with a known block size |
| Mutations.CreateInodeDirectoryMetadata | core/server/master/src/main/java/alluxio/master/file/metasync/MetadataSyncer.java:389-434 | a non-recursive, no-allow-exists, write-through creation carrying the mount-point flag, the resolved UFS URI, the UFS owner, group, status, xattrs and time, the shared-rule mode and always the context's TTL |
| Mutations.UpdateInodeMetadata | core/server/master/src/main/java/alluxio/master/file/metasync/MetadataSyncer.java:314-336 | sets the UFS mode without the shared rule and the new fingerprint; the owner option is the UFS group when non-empty, else the UFS owner when non-empty, else unset; the group option is never set |
| SyncOneStep.Classify | core/server/master/src/main/java/alluxio/master/file/metasync/MetadataSyncer.java:247-265 | create exactly when the inode is absent or the UFS name is lower; delete exactly when the inode is present and the UFS status absent or the inode name lower; reconcile exactly on equal names |
| SyncOneStep.CreateFor | core/server/master/src/main/java/alluxio/master/file/metasync/MetadataSyncer.java:258-262 | a UFS directory is created as a directory and never fails; a UFS file is created as a file and fails exactly on an unknown block size |
| SyncOneStep.ApplyPlanAsWritten | core/server/master/src/main/java/alluxio/master/file/metasync/MetadataSyncer.java:284-296 | the plan dispatch as written, which `syncOne` uses: for a UFS file it agrees with the corrected dispatch; for a UFS directory a delete-and-load plan deletes the inode and then fails the file-status cast, and every other plan agrees with the corrected dispatch |
| SyncOneStep.ReplaceByDirectoryFailsAsWritten | core/server/master/src/main/java/alluxio/master/file/metasync/MetadataSyncer.java:289-292 | as written, a delete-and-load plan for a UFS directory deletes the inode and then fails the file-status cast |
| SyncOneStep.ApplyPlan | core/server/master/src/main/java/alluxio/master/file/metasync/MetadataSyncer.java:284-296 | the corrected dispatch of the finding below: no flag: no call; update flag: exactly one metadata update; delete and load: a recursive delete then a creation of the UFS type (or the unknown-block-size failure after the delete); any other flag combination: `IllegalStateException` with no call; every call on the locked path |
| SyncOneStep.ReplaceRecreates | core/server/master/src/main/java/alluxio/master/file/metasync/MetadataSyncer.java:289-292 | corrected, a delete-and-load of an entry with a usable status re-creates it at the same path, as a directory exactly when the UFS entry is one |
| SyncOneStep.SyncOneReplaceByDirectoryFails | core/server/master/src/main/java/alluxio/master/file/metasync/MetadataSyncer.java:284-292 | on equal names with a UFS directory and a delete-and-load plan, `syncOne` deletes the inode and then throws the cast exception of line 349 |
| SyncOneStep.SyncOne | core/server/master/src/main/java/alluxio/master/file/metasync/MetadataSyncer.java:241-299 | both heads absent: null dereference; UFS only: exactly one creation of the UFS type at the UFS name, UFS cursor moves, no skip; Alluxio only: exactly one recursive delete at the inode name, inode cursor moves and skips its subtree; equal names: the calls of the plan dispatched as written (`ApplyPlanAsWritten`), both move, no skip; every step moves a present cursor; all calls on the locked path |
| SyncOneStep.LockedPath | core/server/master/src/main/java/alluxio/master/file/metasync/MetadataSyncer.java:255-286 | the write lock is taken on the UFS name in the create branch and on the inode name in the delete branch; on equal names the two paths coincide; always under the sync root |
| SyncOneStep.DirectivesFollowCase | core/server/master/src/main/java/alluxio/master/file/metasync/MetadataSyncer.java:252-298 | the cursor directives (`SingleInodeSyncResult`) of a completed step are fixed by the branch: (true,false,false), (false,true,true), (true,true,false) |
| Merge.SkipChildren | core/server/master/src/main/java/alluxio/master/file/metasync/MetadataSyncer.java:226-228 | skipping the subtree drops a leading run of the cursor, all of it below the current entry, and stops at the first entry that is not |
| Merge.DropThrough | core/server/master/src/main/java/alluxio/master/file/metasync/MetadataSyncer.java:186-194 | the resume skip of one cursor drops a leading run named at or before the resume point and stops at the first name after it |
| Merge.ResumeCursors | core/server/master/src/main/java/alluxio/master/file/metasync/MetadataSyncer.java:186-194 | with a resume point, the first inode and the first UFS status the loop sees are each absent or named strictly after it; without one, the cursors are untouched |
| Merge.AdvanceInodes | core/server/master/src/main/java/alluxio/master/file/metasync/MetadataSyncer.java:226-231 | the inode cursor never grows, and shrinks when the step asks it to move |
| Merge.MergeLoop | core/server/master/src/main/java/alluxio/master/file/metasync/MetadataSyncer.java:212-238 | the loop terminates (every step shrinks the cursors), and every call it issues is on a path under the sync root |
| Merge.UpdateMetadata | core/server/master/src/main/java/alluxio/master/file/metasync/MetadataSyncer.java:169-239 | the resumed merge issues only calls on paths under the sync root, never the children-loaded marking |
| Merge.Schedule | core/server/master/src/main/java/alluxio/master/file/metasync/MetadataSyncer.java:212-238 | the merge makes at most as many `syncOne` calls as the two cursors hold, and pairs an inode with a UFS status only under equal names |
| Merge.Run | core/server/master/src/main/java/alluxio/master/file/metasync/MetadataSyncer.java:224-234 | a run of visits ends without exception exactly when every visit's `syncOne` completes |
| Merge.RunStepsAppend | core/server/master/src/main/java/alluxio/master/file/metasync/MetadataSyncer.java:212-238 | over any sequence of step results, running two back to back is running the first and, if no step of it threw, the second |
| Merge.RunAppend | core/server/master/src/main/java/alluxio/master/file/metasync/MetadataSyncer.java:212-238 | running two schedules back to back is running the first and, if it did not throw, the second |
| Merge.MergeIsScheduledRun | core/server/master/src/main/java/alluxio/master/file/metasync/MetadataSyncer.java:212-238 | the loop, with its cursor directives, issues exactly the calls of running its schedule computed from the names alone |
| Merge.StepDependsOnBranchOnly | core/server/master/src/main/java/alluxio/master/file/metasync/MetadataSyncer.java:252-271 | a create step ignores the inode head and a delete step ignores the UFS head |
| MergeProperties.MergeTotality | core/server/master/src/main/java/alluxio/master/file/metasync/MetadataSyncer.java:196-238 | with strictly increasing cursors and no subtree to skip, every name of the union is handed to `syncOne` exactly once, in strictly increasing order, and no other name is |
| MergeProperties.VisitedEntriesFromCursor | core/server/master/src/main/java/alluxio/master/file/metasync/MetadataSyncer.java:224-231 | every inode handed to `syncOne` comes from the inode cursor |
| MergeProperties.SkipLeavesNoDescendant | core/server/master/src/main/java/alluxio/master/file/metasync/MetadataSyncer.java:226-228 | with subtrees listed contiguously, nothing left after a skip lies below the deleted entry |
| MergeProperties.DeletedSubtreeNeverVisited | core/server/master/src/main/java/alluxio/master/file/metasync/MetadataSyncer.java:226-231 | with subtrees listed contiguously, no inode below a deleted one is handed to `syncOne` later in the merge |
| MergeProperties.DropThroughKeepsExactlyLater | core/server/master/src/main/java/alluxio/master/file/metasync/MetadataSyncer.java:186-194 | over an increasing cursor the resume skip keeps exactly the names after the resume point, still increasing |
| MergeProperties.ResumeHandlesExactlyLaterNames | core/server/master/src/main/java/alluxio/master/file/metasync/MetadataSyncer.java:179-194 | for strictly increasing cursors with no inode below an earlier one (a non-recursive listing), a resumed merge hands `syncOne` exactly the names of either cursor after the resume point, each once, in increasing order |
| MergeProperties.ResumeSplitsSchedule | core/server/master/src/main/java/alluxio/master/file/metasync/MetadataSyncer.java:186-194 | with no inode below an earlier one (a non-recursive listing), the schedule of a whole listing is the schedule of its part up to the resume point followed by the schedule of the resumed merge |
| MergeProperties.ResumeAfterInterruption | core/server/master/src/main/java/alluxio/master/file/metasync/MetadataSyncer.java:179-194 | with no inode below an earlier one (a non-recursive listing), a merge stopped after everything up to the resume point and resumed from it issues the same calls, and ends the same way, as one uninterrupted merge |
| Syncer.RootEntry | core/server/master/src/main/java/alluxio/master/file/metasync/MetadataSyncer.java:112-115 | the root inode enters `syncOne` named with a leading separator followed by its own name; absent when the inode is |
| Syncer.Sync | core/server/master/src/main/java/alluxio/master/file/metasync/MetadataSyncer.java:92-140 | an exception in the root step ends the sync; a file root returns (false, 0) after the root step alone; success exactly when the root step completes and either the root is a file or the merge completes and the root inode is a directory; a directory sync returns (true, 0) and ends by marking the root's direct children loaded; every other call is under the root |
| Syncer.FinishDirectorySync | core/server/master/src/main/java/alluxio/master/file/metasync/MetadataSyncer.java:134-139 | after the merge: its exception ends the sync with the calls so far; an absent root inode then fails with a null dereference; the sync succeeds exactly when the merge completed and the root inode is a directory, and only then appends the children-loaded marking |
| Syncer.FileRootIgnoresChildren | core/server/master/src/main/java/alluxio/master/file/metasync/MetadataSyncer.java:118-120 | when the UFS root is a file, the children and the listing do not matter |
| Syncer.BothRootsAbsentFail | core/server/master/src/main/java/alluxio/master/file/metasync/MetadataSyncer.java:112-117 | a path absent from both the UFS and Alluxio fails with a null dereference at the root step, before any call |
| Syncer.DirectorySyncIsRootThenMerge | core/server/master/src/main/java/alluxio/master/file/metasync/MetadataSyncer.java:117-139 | a directory sync issues the root step's calls, then the merge's; a merge exception ends it; a missing root inode fails after the merge |
| Syncer.RootStepUnderRoot | core/server/master/src/main/java/alluxio/master/file/metasync/MetadataSyncer.java:117 | the calls of the root step, completed or not, are on paths under the sync path |
| Syncer.RootEntrySortsFirst | core/server/master/src/main/java/alluxio/master/file/metasync/MetadataSyncer.java:112-117 | the root inode, named with a leading separator, sorts before a UFS root name starting after `/`, so the root step deletes it and asks for its subtree to be skipped |
| PositionReader.PositionRead | core/common/src/main/java/alluxio/PositionReader.java:79-89 | rejects, in this order, a negative length, a negative position and a buffer with less room than the length, each with its message; a zero-length read returns 0 and leaves the buffer alone; any other read returns exactly the implementation's answer |
| PositionReader.PositionReadBytesAt | core/common/src/main/java/alluxio/PositionReader.java:48-51 | on an array, `remaining()` is the length minus the offset in 32-bit `int` arithmetic: a read that runs past the end, or whose length minus offset wraps, fails the space check; a non-empty read that fits without wrapping goes to the implementation with the array at the offset |
| PositionReader.PositionReadBytes | core/common/src/main/java/alluxio/PositionReader.java:36-39 | the overload without an offset is the offset overload at offset 0 |
| PositionReader.InternalOnlyForNonEmptyAdmissible | core/common/src/main/java/alluxio/PositionReader.java:81-87 | a rejected or zero-length read does not depend on the implementation |
| PositionReader.CheckErrorsExactlyInadmissible | core/common/src/main/java/alluxio/PositionReader.java:81-84 | with an implementation throwing only I/O exceptions, a read fails with an argument exception exactly when a check fails |
| PositionReader.NegativeOffsetReachesInternal | core/common/src/main/java/alluxio/PositionReader.java:48-51 | the offset is not checked on its own: a negative offset whose read ends within the array, and whose length minus offset does not wrap, reaches the implementation |
| PositionReader.WrappedRemainingRejects | core/common/src/main/java/alluxio/PositionReader.java:83-84 | an offset 2^31 or more below the array length wraps `remaining()` negative, so every non-empty read is refused by the space check |

## Left out

- Inode locking (`lockInodePath` and its lock patterns), journal and RPC contexts: concurrency and persistence plumbing. Each step's calls are stated to act on the one locked path.
- Failures inside the file system master, the mount table, `Fingerprint.create` and `computeSyncPlan`: their code is not part of this model. The mutations are taken to complete, and the oracles are total functions of their arguments.
- The UFS calls `getStatus` and `listStatusIterable`, `getFileId` and the inode store's children iterator: I/O. `sync` receives their results (root status, root inode, children and listing) as parameters.
- The "missing" case of `getStatus` (the `FileNotFoundException` it swallows) is the absent root status. Other UFS exceptions are not modelled.
- The `System.out.println` tracing, the empty `syncAsync`, `loadPaths` and `loadMetadataFromUFS`, and the `SyncResult` class: these have no logic. The result is a pair of the two constructor arguments.
- The clock passed to `setAttributeSingleFile`: a time value with no bearing on the options built.
- Path joining and normalisation of `AlluxioURI`: a path is the sync root paired with the entry's name.
- `JavaString.CompareTo`: characters are Unicode scalar values, not UTF-16 code units, so supplementary characters may order differently than in Java.
- `UfsFileStatus.UNKNOWN_BLOCK_SIZE` is taken as -1. The class is not part of this model.
- `SkippableInodeIterator.skipChildrenOfTheCurrent` drops the leading run of entries whose names lie under the current name followed by `/`, not every entry whose name merely starts with the current name. The class is not part of this model.
- `Inode.asDirectory()` on a file inode is modelled as the `NotADirectory` error. The class is not part of this model.
- The TTL action of the no-TTL option is unset, modelled as `Unset`.
- `PositionReader.PositionRead`: the concrete target buffers are not part of this model. A byte array's `remaining()` is taken as its length minus the offset, computed as a Java `int` subtraction that wraps; `ByteArrayTargetBuffer` is not part of this model. ByteBuffer and Netty buffers are reduced to their room left. The bytes written are whatever the implementation returns with its count.
- The `ByteBuffer` and `ByteBuf` overloads of `positionRead`, and `close()`: they only wrap the argument in a target buffer, or do nothing.
- `MergeProperties.MergeTotality`: stated for cursors without subtree skips (no inode below an earlier one), as in a non-recursive listing. `DeletedSubtreeNeverVisited` covers recursive listings.
- Fingerprint serialisation: the fingerprint is an opaque string.
- `PositionReader.NegativeOffsetReachesInternal`: stated only where the array length minus the offset fits in an `int`; `WrappedRemainingRejects` states what happens when it does not.
- `MergeProperties.ResumeHandlesExactlyLaterNames`: stated only for cursors with no inode below an earlier one. The cursors are fixed sequences, so the descendants of a directory deleted before the resume point would reappear in the resumed run, where the inode store would no longer hold them.
- `MergeProperties.ResumeSplitsSchedule`: stated only for cursors with no inode below an earlier one, for the same reason.
- `MergeProperties.ResumeAfterInterruption`: stated only for cursors with no inode below an earlier one, for the same reason.
- An unknown block size throws a plain `RuntimeException` (line 353 of `MetadataSyncer.java`); the model names it `UnknownBlockSizeError`.
- `sync` always reports 0 entries processed (lines 119 and 139), and `Syncer.Sync` states that.
- `sync` observes no cancellation and returns no resume point; the caller passes `startAfter` in.

## Findings

| source | as written | input that shows it | evidently intended | confidence | as-written member | corrected member |
|---|---|---|---|---|---|---|
| core/server/master/src/main/java/alluxio/master/file/metasync/MetadataSyncer.java:289-292 | on a plan with `toDelete` and `toLoadMetadata`, the inode is deleted and then `createInodeFileMetadata` casts the UFS status to `UfsFileStatus` (line 349) | an Alluxio file whose UFS counterpart is now a directory, with a plan to delete and load: the delete completes and the cast throws `ClassCastException`, leaving the entry absent from Alluxio | re-create the entry by its UFS type, as the create branch does (lines 258-262) | not executed; medium (`computeSyncPlan` is not part of this model, so whether it yields this plan for a directory is not shown) | SyncOneStep.ApplyPlanAsWritten | SyncOneStep.ApplyPlan |

=== FILE: java_string.dfy ===
/** The ordering the merge relies on: Java's `String.compareTo`, and the facts
    about it that make it a strict total order on names. */
module JavaString {

  /** Java `String.compareTo`: the difference of the first pair of characters
      that differ, or else the difference of the lengths. */
  function CompareTo(a: string, b: string): (c: int)
    // a string compared with an extension of itself: the length difference
    ensures a <= b || b <= a ==> c == |a| - |b|
  {
    if |a| == 0 || |b| == 0 then |a| - |b|
    else if a[0] != b[0] then a[0] as int - b[0] as int
    else CompareTo(a[1..], b[1..])
  }

  /** The result at the first index where the strings differ: the difference
      of the two characters there. */
  lemma {:induction false} CompareToFirstDifference(a: string, b: string, k: nat)
    requires k < |a| && k < |b| && a[..k] == b[..k] && a[k] != b[k]
    ensures CompareTo(a, b) == a[k] as int - b[k] as int
  {
    if k > 0 {
      assert a[0] == a[..k][0] == b[..k][0] == b[0];
      assert a[1..][..k - 1] == a[1..k] == b[1..k] == b[1..][..k - 1];
      CompareToFirstDifference(a[1..], b[1..], k - 1);
    }
  }

  /** `a` sorts strictly before `b`. */
  predicate Less(a: string, b: string)
  {
    CompareTo(a, b) < 0
  }

  /** `a` sorts before `b` or is `b`. */
  predicate LessEq(a: string, b: string)
  {
    CompareTo(a, b) <= 0
  }

  /** Names strictly increasing under `compareTo`: sorted and without duplicates. */
  ghost predicate StrictlyIncreasing(names: seq<string>)
  {
    forall i, j :: 0 <= i < j < |names| ==> Less(names[i], names[j])
  }

  /** `compareTo` reports zero exactly for equal strings. */
  lemma {:induction false} CompareToZeroIffEqual(a: string, b: string)
    ensures CompareTo(a, b) == 0 <==> a == b
  {
    if |a| == 0 || |b| == 0 {
    } else if a[0] != b[0] {
    } else {
      CompareToZeroIffEqual(a[1..], b[1..]);
      assert a == [a[0]] + a[1..] && b == [b[0]] + b[1..];
    }
  }

  /** Swapping the arguments negates the result. */
  lemma {:induction false} CompareToAntisymmetric(a: string, b: string)
    ensures CompareTo(b, a) == -CompareTo(a, b)
  {
    if |a| == 0 || |b| == 0 {
    } else if a[0] != b[0] {
    } else {
      CompareToAntisymmetric(a[1..], b[1..]);
    }
  }

  /** `Less` is transitive. */
  lemma {:induction false} LessTransitive(a: string, b: string, c: string)
    requires Less(a, b) && Less(b, c)
    ensures Less(a, c)
  {
    if |a| == 0 || |b| == 0 || |c| == 0 {
    } else if a[0] != b[0] || b[0] != c[0] {
    } else {
      LessTransitive(a[1..], b[1..], c[1..]);
    }
  }

  /** Exactly one of `a < b`, `a == b`, `b < a` holds. */
  lemma Trichotomy(a: string, b: string)
    ensures Less(a, b) || a == b || Less(b, a)
    ensures !(Less(a, b) && Less(b, a))
    ensures Less(a, b) || Less(b, a) ==> a != b
  {
    CompareToZeroIffEqual(a, b);
    CompareToAntisymmetric(a, b);
  }

  /** `LessEq` followed by `Less` is `Less`. */
  lemma LessEqLessTransitive(a: string, b: string, c: string)
    requires LessEq(a, b) && Less(b, c)
    ensures Less(a, c)
  {
    CompareToZeroIffEqual(a, b);
    if a != b {
      LessTransitive(a, b, c);
    }
  }

  /** `Less` followed by `LessEq` is `Less`. */
  lemma LessLessEqTransitive(a: string, b: string, c: string)
    requires Less(a, b) && LessEq(b, c)
    ensures Less(a, c)
  {
    CompareToZeroIffEqual(b, c);
    if b != c {
      LessTransitive(a, b, c);
    }
  }
}

=== FILE: merge.dfy ===
/** `updateMetadata`: the resume skip and the lock-step merge of the inode
    cursor with the UFS listing, and the schedule of visits the merge makes,
    computed from the names alone. The facts about whole listings (totality,
    skipped subtrees, resumption) are in `MergeProperties`. */
module Merge {
  import opened Wrappers
  import opened JavaString
  import opened SyncModel
  import opened Mutations
  import opened SyncOneStep

  function Head<T>(s: seq<T>): (r: Option<T>)
    ensures r.Some? <==> |s| > 0
    ensures r.Some? ==> r.value == s[0]
  {
    if |s| > 0 then Some(s[0]) else None
  }

  function EntryName(e: InodeEntry): (n: Name) { e.name }

  function StatusName(u: UfsStatus): (n: Name) { u.name }

  /** The names of a cursor's entries, in cursor order. */
  function NamesOf<T>(xs: seq<T>, nameOf: T -> Name): (names: seq<Name>)
    ensures |names| == |xs| && forall i :: 0 <= i < |xs| ==> names[i] == nameOf(xs[i])
  {
    seq(|xs|, i requires 0 <= i < |xs| => nameOf(xs[i]))
  }

  function InodeNames(inodes: seq<InodeEntry>): (names: seq<Name>)
    ensures |names| == |inodes| && forall i :: 0 <= i < |inodes| ==> names[i] == inodes[i].name
  {
    NamesOf(inodes, EntryName)
  }

  function UfsNames(ufs: seq<UfsStatus>): (names: seq<Name>)
    ensures |names| == |ufs| && forall i :: 0 <= i < |ufs| ==> names[i] == ufs[i].name
  {
    NamesOf(ufs, StatusName)
  }

  /** `name` lies in the subtree below `ancestor`. */
  predicate IsDescendant(name: Name, ancestor: Name)
  {
    ancestor + "/" <= name
  }

  /** `skipChildrenOfTheCurrent`: drops the entries following the current one
      that lie in its subtree, up to the first one that does not. */
  function SkipChildren(rest: seq<InodeEntry>, current: Name): (r: seq<InodeEntry>)
    ensures |r| <= |rest| && r == rest[|rest| - |r|..]
    ensures |r| > 0 ==> !IsDescendant(r[0].name, current)
    ensures forall k :: 0 <= k < |rest| - |r| ==> IsDescendant(rest[k].name, current)
    decreases |rest|
  {
    if |rest| > 0 && IsDescendant(rest[0].name, current) then SkipChildren(rest[1..], current) else rest
  }

  /** The resume skip of one cursor: advances while the current name compares
      less than or equal to `from`. */
  function DropThrough<T>(xs: seq<T>, nameOf: T -> Name, from: Name): (r: seq<T>)
    ensures |r| <= |xs| && r == xs[|xs| - |r|..]
    ensures |r| > 0 ==> CompareTo(nameOf(r[0]), from) > 0
    ensures forall k :: 0 <= k < |xs| - |r| ==> CompareTo(nameOf(xs[k]), from) <= 0
    decreases |xs|
  {
    if |xs| > 0 && CompareTo(nameOf(xs[0]), from) <= 0 then DropThrough(xs[1..], nameOf, from) else xs
  }

  /** The part of a cursor the resume skip discards. */
  function UpTo<T>(xs: seq<T>, nameOf: T -> Name, from: Name): (prefix: seq<T>)
  {
    xs[..|xs| - |DropThrough(xs, nameOf, from)|]
  }

  datatype Cursors = Cursors(inodes: seq<InodeEntry>, ufs: seq<UfsStatus>)

  /** The cursors the merge loop starts from: with a resume point, each
      cursor's first entry sorts strictly after it (or the cursor is empty). */
  function ResumeCursors(startFrom: Option<Name>, inodes: seq<InodeEntry>, ufs: seq<UfsStatus>): (c: Cursors)
    ensures startFrom.None? ==> c == Cursors(inodes, ufs)
    ensures |c.inodes| <= |inodes| && c.inodes == inodes[|inodes| - |c.inodes|..]
    ensures |c.ufs| <= |ufs| && c.ufs == ufs[|ufs| - |c.ufs|..]
    ensures startFrom.Some? && |c.inodes| > 0 ==> Less(startFrom.value, c.inodes[0].name)
    ensures startFrom.Some? && |c.ufs| > 0 ==> Less(startFrom.value, c.ufs[0].name)
  {
    if startFrom.None? then Cursors(inodes, ufs)
    else
      var c := Cursors(DropThrough(inodes, EntryName, startFrom.value), DropThrough(ufs, StatusName, startFrom.value));
      CompareToAntisymmetric(if |c.inodes| > 0 then c.inodes[0].name else "", startFrom.value);
      CompareToAntisymmetric(if |c.ufs| > 0 then c.ufs[0].name else "", startFrom.value);
      c
  }

  /** The inode cursor after a step: the subtree skipped first if asked, then
      moved past the current entry if asked. */
  function AdvanceInodes(inodes: seq<InodeEntry>, skip: bool, move: bool): (r: seq<InodeEntry>)
    requires skip || move ==> |inodes| > 0
    ensures |r| <= |inodes| && (move ==> |r| < |inodes|)
  {
    var skipped := if skip then inodes[..1] + SkipChildren(inodes[1..], inodes[0].name) else inodes;
    if move then skipped[1..] else skipped
  }

  /** The calls a merge issued and the exception it stopped on, if any. */
  datatype Outcome = Outcome(mutations: seq<Mutation>, error: Option<SyncError>)

  /** The `while` loop of `updateMetadata`: call `syncOne` on the two cursor
      heads and apply its directives, until both cursors are exhausted or a
      step throws. */
  function MergeLoop(env: Env, ctx: SyncContext, root: string, inodes: seq<InodeEntry>,
                     ufs: seq<UfsStatus>): (r: Outcome)
    ensures forall m :: m in r.mutations ==> !m.SetDirectChildrenLoaded? && m.path.root == root
    decreases |inodes| + |ufs|
  {
    if |inodes| == 0 && |ufs| == 0 then Outcome([], None)
    else
      match SyncOne(env, ctx, root, Head(ufs), Head(inodes))
      case Err(f) => Outcome(f.done, Some(f.error))
      case Ok(step) =>
        var rest := MergeLoop(env, ctx, root, AdvanceInodes(inodes, step.skipChildren, step.moveInode),
                              if step.moveUfs then ufs[1..] else ufs);
        Outcome(step.mutations + rest.mutations, rest.error)
  }

  /** `updateMetadata`. */
  function UpdateMetadata(env: Env, ctx: SyncContext, root: string, inodes: seq<InodeEntry>,
                          ufs: seq<UfsStatus>, startFrom: Option<Name>): (r: Outcome)
    ensures forall m :: m in r.mutations ==> !m.SetDirectChildrenLoaded? && m.path.root == root
  {
    var c := ResumeCursors(startFrom, inodes, ufs);
    MergeLoop(env, ctx, root, c.inodes, c.ufs)
  }

  // ---------------------------------------------------------------------
  // The schedule: which entries the merge hands to `syncOne`, in order.

  /** One call of `syncOne`, reduced to the entries its branch uses. */
  datatype Visit =
    | CreateVisit(status: UfsStatus)
    | DeleteVisit(entry: InodeEntry)
    | ReconcileVisit(status: UfsStatus, entry: InodeEntry)
  {
    function Name(): (n: Name)
    {
      match this
      case CreateVisit(u) => u.name
      case DeleteVisit(e) => e.name
      case ReconcileVisit(_, e) => e.name
    }
  }

  /** The sequence of visits the merge makes, from the names alone. */
  function Schedule(inodes: seq<InodeEntry>, ufs: seq<UfsStatus>): (s: seq<Visit>)
    ensures |s| <= |inodes| + |ufs|
    ensures forall i :: 0 <= i < |s| && s[i].ReconcileVisit? ==> s[i].status.name == s[i].entry.name
    decreases |inodes| + |ufs|
  {
    if |inodes| == 0 && |ufs| == 0 then []
    else
      match Classify(InodeName(Head(inodes)), UfsName(Head(ufs)))
      case CreateFromUfs => [CreateVisit(ufs[0])] + Schedule(inodes, ufs[1..])
      case DeleteFromAlluxio => [DeleteVisit(inodes[0])] + Schedule(SkipChildren(inodes[1..], inodes[0].name), ufs)
      case Reconcile => [ReconcileVisit(ufs[0], inodes[0])] + Schedule(inodes[1..], ufs[1..])
  }

  function VisitNames(s: seq<Visit>): (names: seq<Name>)
    ensures |names| == |s| && forall i :: 0 <= i < |s| ==> names[i] == s[i].Name()
  {
    seq(|s|, i requires 0 <= i < |s| => s[i].Name())
  }

  /** The `syncOne` call a visit stands for. */
  function StepOf(env: Env, ctx: SyncContext, root: string, v: Visit): (r: Result<Step, Failure>)
  {
    match v
    case CreateVisit(u) => SyncOne(env, ctx, root, Some(u), None)
    case DeleteVisit(e) => SyncOne(env, ctx, root, None, Some(e))
    case ReconcileVisit(u, e) => SyncOne(env, ctx, root, Some(u), Some(e))
  }

  /** Executing a sequence of step results: each step's calls in order,
      stopping at the first step that throws. */
  function RunSteps(steps: seq<Result<Step, Failure>>): (r: Outcome)
    ensures r.error.None? <==> forall i :: 0 <= i < |steps| ==> steps[i].Ok?
  {
    if |steps| == 0 then Outcome([], None)
    else
      match steps[0]
      case Err(f) => Outcome(f.done, Some(f.error))
      case Ok(step) =>
        var rest := RunSteps(steps[1..]);
        assert forall i :: 1 <= i < |steps| ==> steps[i] == steps[1..][i - 1];
        Outcome(step.mutations + rest.mutations, rest.error)
  }

  /** The `syncOne` results of a schedule, visit by visit. */
  function StepsOf(env: Env, ctx: SyncContext, root: string, visits: seq<Visit>): (steps: seq<Result<Step, Failure>>)
    ensures |steps| == |visits| && forall i :: 0 <= i < |visits| ==> steps[i] == StepOf(env, ctx, root, visits[i])
  {
    seq(|visits|, i requires 0 <= i < |visits| => StepOf(env, ctx, root, visits[i]))
  }

  /** Executing a schedule: each visit's calls in order, stopping at the first
      visit that throws. */
  function Run(env: Env, ctx: SyncContext, root: string, visits: seq<Visit>): (r: Outcome)
    ensures r.error.None? <==> forall i :: 0 <= i < |visits| ==> StepOf(env, ctx, root, visits[i]).Ok?
  {
    RunSteps(StepsOf(env, ctx, root, visits))
  }

  /** One outcome followed by another: the second only counts when the
      first did not throw. */
  function AndThen(first: Outcome, second: Outcome): (o: Outcome)
  {
    if first.error.Some? then first else Outcome(first.mutations + second.mutations, second.error)
  }

  /** Running two sequences of step results back to back is running the
      first, then, if it did not throw, the second. */
  lemma {:induction false} RunStepsAppend(x: seq<Result<Step, Failure>>, y: seq<Result<Step, Failure>>)
    ensures RunSteps(x + y) == AndThen(RunSteps(x), RunSteps(y))
  {
    if |x| == 0 {
      assert x + y == y;
    } else {
      assert (x + y)[0] == x[0];
      assert (x + y)[1..] == x[1..] + y;
      RunStepsAppend(x[1..], y);
      match x[0]
      case Err(f) =>
      case Ok(step) =>
        var r1, r2 := RunSteps(x[1..]), RunSteps(y);
        if r1.error.None? {
          assert step.mutations + (r1.mutations + r2.mutations) == (step.mutations + r1.mutations) + r2.mutations;
        }
    }
  }

  /** Running two schedules back to back is running the first, then, if it
      did not throw, the second. */
  lemma RunAppend(env: Env, ctx: SyncContext, root: string, a: seq<Visit>, b: seq<Visit>)
    ensures Run(env, ctx, root, a + b) == AndThen(Run(env, ctx, root, a), Run(env, ctx, root, b))
  {
    var sa, sb := StepsOf(env, ctx, root, a), StepsOf(env, ctx, root, b);
    forall i | 0 <= i < |a| + |b|
      ensures StepsOf(env, ctx, root, a + b)[i] == (sa + sb)[i]
    {
      if i < |a| { assert (a + b)[i] == a[i]; } else { assert (a + b)[i] == b[i - |a|]; }
    }
    assert StepsOf(env, ctx, root, a + b) == sa + sb;
    RunStepsAppend(sa, sb);
  }

  /** One unfolding of `Run` on a non-empty schedule. */
  lemma RunCons(env: Env, ctx: SyncContext, root: string, visits: seq<Visit>)
    requires |visits| > 0
    ensures Run(env, ctx, root, visits)
         == match StepOf(env, ctx, root, visits[0])
            case Err(f) => Outcome(f.done, Some(f.error))
            case Ok(step) => Outcome(step.mutations + Run(env, ctx, root, visits[1..]).mutations,
                                     Run(env, ctx, root, visits[1..]).error)
  {
    var steps := StepsOf(env, ctx, root, visits);
    assert steps[1..] == StepsOf(env, ctx, root, visits[1..]);
  }

  /** The first visit of the schedule stands for the `syncOne` call on the
      cursor heads. */
  lemma FirstVisitIsHeadCall(env: Env, ctx: SyncContext, root: string, inodes: seq<InodeEntry>, ufs: seq<UfsStatus>)
    requires |inodes| + |ufs| > 0
    ensures StepOf(env, ctx, root, Schedule(inodes, ufs)[0]) == SyncOne(env, ctx, root, Head(ufs), Head(inodes))
  {
    StepDependsOnBranchOnly(env, ctx, root, Head(ufs), Head(inodes));
  }

  /** After a successful step, the rest of the schedule is the schedule of
      the cursors as the step's directives leave them. */
  lemma ScheduleFollowsDirectives(env: Env, ctx: SyncContext, root: string, inodes: seq<InodeEntry>, ufs: seq<UfsStatus>, step: Step)
    requires |inodes| + |ufs| > 0
    requires SyncOne(env, ctx, root, Head(ufs), Head(inodes)) == Ok(step)
    ensures step.skipChildren || step.moveInode ==> |inodes| > 0
    ensures step.moveUfs ==> |ufs| > 0
    ensures Schedule(inodes, ufs)[1..]
         == Schedule(AdvanceInodes(inodes, step.skipChildren, step.moveInode), if step.moveUfs then ufs[1..] else ufs)
  {
    DirectivesFollowCase(env, ctx, root, Head(ufs), Head(inodes));
    ScheduleAfter(inodes, ufs, step.skipChildren, step.moveInode, step.moveUfs);
  }

  /** After directives that fit the branch of the cursor heads, the rest of
      the schedule is the schedule of the cursors as the directives leave
      them. */
  lemma ScheduleAfter(inodes: seq<InodeEntry>, ufs: seq<UfsStatus>, skipChildren: bool, moveInode: bool, moveUfs: bool)
    requires |inodes| + |ufs| > 0
    requires match Classify(InodeName(Head(inodes)), UfsName(Head(ufs)))
      case CreateFromUfs => moveUfs && !moveInode && !skipChildren
      case DeleteFromAlluxio => !moveUfs && moveInode && skipChildren
      case Reconcile => moveUfs && moveInode && !skipChildren
    ensures skipChildren || moveInode ==> |inodes| > 0
    ensures moveUfs ==> |ufs| > 0
    ensures Schedule(inodes, ufs)[1..]
         == Schedule(AdvanceInodes(inodes, skipChildren, moveInode), if moveUfs then ufs[1..] else ufs)
  {
    match Classify(InodeName(Head(inodes)), UfsName(Head(ufs)))
    case CreateFromUfs =>
      assert Schedule(inodes, ufs)[1..] == Schedule(inodes, ufs[1..]);
    case DeleteFromAlluxio =>
      var rest := SkipChildren(inodes[1..], inodes[0].name);
      assert Schedule(inodes, ufs)[1..] == Schedule(rest, ufs);
      assert (inodes[..1] + rest)[1..] == rest;
    case Reconcile =>
      assert Schedule(inodes, ufs)[1..] == Schedule(inodes[1..], ufs[1..]);
  }

  /** The merge loop is the run of its schedule: what `syncOne` does in a
      step depends on the cursor heads only through the branch they select. */
  lemma {:induction false} MergeIsScheduledRun(env: Env, ctx: SyncContext, root: string,
                                               inodes: seq<InodeEntry>, ufs: seq<UfsStatus>)
    ensures MergeLoop(env, ctx, root, inodes, ufs) == Run(env, ctx, root, Schedule(inodes, ufs))
    decreases |inodes| + |ufs|
  {
    if |inodes| == 0 && |ufs| == 0 {
    } else {
      FirstVisitIsHeadCall(env, ctx, root, inodes, ufs);
      RunCons(env, ctx, root, Schedule(inodes, ufs));
      match SyncOne(env, ctx, root, Head(ufs), Head(inodes))
      case Err(f) =>
      case Ok(step) =>
        ScheduleFollowsDirectives(env, ctx, root, inodes, ufs, step);
        var inodes' := AdvanceInodes(inodes, step.skipChildren, step.moveInode);
        var ufs' := if step.moveUfs then ufs[1..] else ufs;
        MergeIsScheduledRun(env, ctx, root, inodes', ufs');
    }
  }

  /** `syncOne` on a pair of heads is `syncOne` on the part of the pair its
      branch reads: a create ignores the inode, a delete ignores the status. */
  lemma StepDependsOnBranchOnly(env: Env, ctx: SyncContext, root: string, ufs: Option<UfsStatus>, inode: Option<InodeEntry>)
    requires ufs.Some? || inode.Some?
    ensures match Classify(InodeName(inode), UfsName(ufs))
      case CreateFromUfs => SyncOne(env, ctx, root, ufs, inode) == SyncOne(env, ctx, root, ufs, None)
      case DeleteFromAlluxio => SyncOne(env, ctx, root, ufs, inode) == SyncOne(env, ctx, root, None, inode)
      case Reconcile => true
  {
  }
}

=== FILE: merge_properties.dfy ===
/** What the merge guarantees over whole listings: totality and order, the
    skip of deleted subtrees, and resumption after an interruption. */
module MergeProperties {
  import opened Wrappers
  import opened JavaString
  import opened SyncModel
  import opened SyncOneStep
  import opened Merge

  /** No inode in the cursor lies below an earlier one, as in a
      non-recursive listing: skipping a subtree then drops nothing. */
  ghost predicate NoDescendants(inodes: seq<InodeEntry>)
  {
    forall i, j :: 0 <= i < j < |inodes| ==> !IsDescendant(inodes[j].name, inodes[i].name)
  }

  /** Every subtree occupies a contiguous run right after its root, as in a
      depth-first listing. */
  ghost predicate SubtreesContiguous(inodes: seq<InodeEntry>)
  {
    forall i, j, k :: 0 <= i < j < k < |inodes| && IsDescendant(inodes[k].name, inodes[i].name)
      ==> IsDescendant(inodes[j].name, inodes[i].name)
  }

  /** No visit after a delete hands `syncOne` an inode below the deleted one. */
  ghost predicate DeletedSubtreesUnvisited(s: seq<Visit>)
  {
    forall i, j :: 0 <= i < j < |s| && s[i].DeleteVisit? && !s[j].CreateVisit?
      ==> !IsDescendant(s[j].entry.name, s[i].entry.name)
  }

  /** Every inode a schedule visits is one of `inodes`. */
  ghost predicate EntriesFrom(s: seq<Visit>, inodes: seq<InodeEntry>)
  {
    forall j :: 0 <= j < |s| && !s[j].CreateVisit? ==> s[j].entry in inodes
  }

  // ---------------------------------------------------------------------
  // Helpers on sorted name sequences.

  lemma IncreasingTail(names: seq<Name>)
    requires |names| > 0 && StrictlyIncreasing(names)
    ensures StrictlyIncreasing(names[1..])
  {
    forall i, j | 0 <= i < j < |names| - 1
      ensures Less(names[1..][i], names[1..][j])
    {
      assert names[1..][i] == names[i + 1] && names[1..][j] == names[j + 1];
    }
  }

  /** A name below the head of an increasing sequence is below all of it. */
  lemma AllAbove(n: Name, names: seq<Name>)
    requires StrictlyIncreasing(names)
    requires |names| > 0 ==> Less(n, names[0])
    ensures forall m :: m in names ==> Less(n, m)
  {
    forall m | m in names
      ensures Less(n, m)
    {
      var k :| 0 <= k < |names| && names[k] == m;
      if k > 0 {
        LessTransitive(n, names[0], m);
      }
    }
  }

  lemma ConsIncreasing(n: Name, rest: seq<Name>)
    requires StrictlyIncreasing(rest)
    requires forall m :: m in rest ==> Less(n, m)
    ensures StrictlyIncreasing([n] + rest)
  {
    var s := [n] + rest;
    forall i, j | 0 <= i < j < |s|
      ensures Less(s[i], s[j])
    {
      assert s[j] == rest[j - 1];
      if i > 0 {
        assert s[i] == rest[i - 1];
      } else {
        assert rest[j - 1] in rest;
      }
    }
  }

  lemma NoDescendantsSuffix(inodes: seq<InodeEntry>, d: nat)
    requires d <= |inodes| && NoDescendants(inodes)
    ensures NoDescendants(inodes[d..])
  {
    forall i, j | 0 <= i < j < |inodes| - d
      ensures !IsDescendant(inodes[d..][j].name, inodes[d..][i].name)
    {
      assert inodes[d..][j] == inodes[d + j] && inodes[d..][i] == inodes[d + i];
    }
  }

  /** Without descendants, skipping the current entry's subtree drops nothing. */
  lemma SkipDropsNothing(inodes: seq<InodeEntry>)
    requires |inodes| > 0 && NoDescendants(inodes)
    ensures SkipChildren(inodes[1..], inodes[0].name) == inodes[1..]
  {
    var rest := inodes[1..];
    if |rest| > 0 {
      assert rest[0] == inodes[1];
      assert !IsDescendant(rest[0].name, inodes[0].name);
    }
  }

  // ---------------------------------------------------------------------
  // Totality: every name of either cursor handled once, in increasing order.

  lemma NamesCons<T>(xs: seq<T>, nameOf: T -> Name)
    requires |xs| > 0
    ensures NamesOf(xs, nameOf) == [nameOf(xs[0])] + NamesOf(xs[1..], nameOf)
  {
  }

  /** A strictly increasing cursor after a visit of name `n`: either it moved
      past its head, which was `n`, or it stayed and its head is above `n`.
      Either way what is left is strictly increasing, above `n`, and loses
      nothing but `n`. */
  lemma CursorAfterVisit<T>(xs: seq<T>, nameOf: T -> Name, xs': seq<T>, n: Name)
    requires StrictlyIncreasing(NamesOf(xs, nameOf))
    requires (|xs| > 0 && xs' == xs[1..] && n == nameOf(xs[0])) || (xs' == xs && (|xs| > 0 ==> Less(n, nameOf(xs[0]))))
    ensures StrictlyIncreasing(NamesOf(xs', nameOf))
    ensures forall m :: m in NamesOf(xs', nameOf) ==> Less(n, m)
    ensures forall m :: m in NamesOf(xs, nameOf) ==> m == n || m in NamesOf(xs', nameOf)
    ensures forall m :: m in NamesOf(xs', nameOf) ==> m in NamesOf(xs, nameOf)
    ensures xs' != xs ==> n in NamesOf(xs, nameOf)
  {
    var names := NamesOf(xs, nameOf);
    if xs' == xs {
      AllAbove(n, names);
    } else {
      NamesCons(xs, nameOf);
      IncreasingTail(names);
      AllAbove(n, names[1..]);
    }
  }

  /** The first visit of a merge: the name it handles and the cursors it
      leaves behind, each of which either moved past that name or stayed with
      a larger head. */
  lemma FirstVisit(inodes: seq<InodeEntry>, ufs: seq<UfsStatus>) returns (n: Name, inodes': seq<InodeEntry>, ufs': seq<UfsStatus>)
    requires |inodes| + |ufs| > 0 && NoDescendants(inodes)
    ensures VisitNames(Schedule(inodes, ufs)) == [n] + VisitNames(Schedule(inodes', ufs'))
    ensures |inodes'| + |ufs'| < |inodes| + |ufs|
    ensures (|inodes| > 0 && inodes' == inodes[1..] && n == inodes[0].name) || (inodes' == inodes && (|inodes| > 0 ==> Less(n, inodes[0].name)))
    ensures (|ufs| > 0 && ufs' == ufs[1..] && n == ufs[0].name) || (ufs' == ufs && (|ufs| > 0 ==> Less(n, ufs[0].name)))
    ensures NoDescendants(inodes')
  {
    var v: Visit;
    match Classify(InodeName(Head(inodes)), UfsName(Head(ufs))) {
      case CreateFromUfs =>
        v, inodes', ufs' := CreateVisit(ufs[0]), inodes, ufs[1..];
      case DeleteFromAlluxio =>
        SkipDropsNothing(inodes);
        v, inodes', ufs' := DeleteVisit(inodes[0]), inodes[1..], ufs;
        NoDescendantsSuffix(inodes, 1);
      case Reconcile =>
        v, inodes', ufs' := ReconcileVisit(ufs[0], inodes[0]), inodes[1..], ufs[1..];
        NoDescendantsSuffix(inodes, 1);
    }
    n := v.Name();
    assert Schedule(inodes, ufs) == [v] + Schedule(inodes', ufs');
    VisitNamesCons(v, Schedule(inodes', ufs'));
  }

  lemma VisitNamesCons(v: Visit, rest: seq<Visit>)
    ensures VisitNames([v] + rest) == [v.Name()] + VisitNames(rest)
  {
    assert forall i :: 1 <= i < |rest| + 1 ==> ([v] + rest)[i] == rest[i - 1];
  }

  /** Given strictly increasing cursors and no subtree to skip, the merge
      hands `syncOne` every name of the union of the two cursors exactly
      once, in strictly increasing order. */
  lemma {:induction false} MergeTotality(inodes: seq<InodeEntry>, ufs: seq<UfsStatus>)
    requires StrictlyIncreasing(InodeNames(inodes)) && StrictlyIncreasing(UfsNames(ufs))
    requires NoDescendants(inodes)
    ensures StrictlyIncreasing(VisitNames(Schedule(inodes, ufs)))
    ensures forall n :: n in VisitNames(Schedule(inodes, ufs)) <==> n in InodeNames(inodes) || n in UfsNames(ufs)
    decreases |inodes| + |ufs|
  {
    if |inodes| == 0 && |ufs| == 0 {
      return;
    }
    var n, inodes', ufs' := FirstVisit(inodes, ufs);
    CursorAfterVisit(inodes, EntryName, inodes', n);
    CursorAfterVisit(ufs, StatusName, ufs', n);
    MergeTotality(inodes', ufs');
    ConsIncreasing(n, VisitNames(Schedule(inodes', ufs')));
  }

  // ---------------------------------------------------------------------
  // Skip correctness.

  /** One step of the schedule: its first visit and the cursors it leaves,
      the inode cursor always a suffix of the one before. */
  lemma ScheduleStep(inodes: seq<InodeEntry>, ufs: seq<UfsStatus>) returns (v: Visit, inodes': seq<InodeEntry>, ufs': seq<UfsStatus>)
    requires |inodes| + |ufs| > 0
    ensures Schedule(inodes, ufs) == [v] + Schedule(inodes', ufs')
    ensures |inodes'| + |ufs'| < |inodes| + |ufs|
    ensures |inodes'| <= |inodes| && inodes' == inodes[|inodes| - |inodes'|..]
    ensures !v.CreateVisit? ==> |inodes| > 0 && v.entry == inodes[0]
    ensures v.DeleteVisit? ==> inodes' == SkipChildren(inodes[1..], inodes[0].name)
  {
    match Classify(InodeName(Head(inodes)), UfsName(Head(ufs))) {
      case CreateFromUfs =>
        v, inodes', ufs' := CreateVisit(ufs[0]), inodes, ufs[1..];
      case DeleteFromAlluxio =>
        v, inodes', ufs' := DeleteVisit(inodes[0]), SkipChildren(inodes[1..], inodes[0].name), ufs;
      case Reconcile =>
        v, inodes', ufs' := ReconcileVisit(ufs[0], inodes[0]), inodes[1..], ufs[1..];
    }
  }

  /** The inodes the schedule hands to `syncOne` come from the inode cursor. */
  lemma {:induction false} VisitedEntriesFromCursor(inodes: seq<InodeEntry>, ufs: seq<UfsStatus>)
    ensures EntriesFrom(Schedule(inodes, ufs), inodes)
    decreases |inodes| + |ufs|
  {
    if |inodes| == 0 && |ufs| == 0 {
      return;
    }
    var v, inodes', ufs' := ScheduleStep(inodes, ufs);
    VisitedEntriesFromCursor(inodes', ufs');
    var rest := Schedule(inodes', ufs');
    forall j | 0 <= j < |rest| + 1 && !([v] + rest)[j].CreateVisit?
      ensures ([v] + rest)[j].entry in inodes
    {
      if j > 0 {
        assert ([v] + rest)[j] == rest[j - 1];
        assert rest[j - 1].entry in inodes';
      }
    }
  }

  lemma ContiguousSuffix(inodes: seq<InodeEntry>, d: nat)
    requires d <= |inodes| && SubtreesContiguous(inodes)
    ensures SubtreesContiguous(inodes[d..])
  {
    var t := inodes[d..];
    forall i, j, k | 0 <= i < j < k < |t| && IsDescendant(t[k].name, t[i].name)
      ensures IsDescendant(t[j].name, t[i].name)
    {
      assert t[i] == inodes[d + i] && t[j] == inodes[d + j] && t[k] == inodes[d + k];
    }
  }

  /** One instance of `SubtreesContiguous`, named so that a caller can ask for
      it without the quantifier being unfolded in its own context. */
  lemma ContiguityAt(inodes: seq<InodeEntry>, i: nat, j: nat, k: nat)
    requires SubtreesContiguous(inodes) && i < j < k < |inodes|
    ensures IsDescendant(inodes[k].name, inodes[i].name) ==> IsDescendant(inodes[j].name, inodes[i].name)
  {
  }

  /** With contiguous subtrees, nothing left after the skip lies below the
      deleted entry. */
  lemma SkipLeavesNoDescendant(inodes: seq<InodeEntry>)
    requires |inodes| > 0 && SubtreesContiguous(inodes)
    ensures forall e :: e in SkipChildren(inodes[1..], inodes[0].name) ==> !IsDescendant(e.name, inodes[0].name)
  {
    var rest := inodes[1..];
    var r := SkipChildren(rest, inodes[0].name);
    var d := |rest| - |r|;
    assert r == inodes[1 + d..];
    forall m | 0 <= m < |r|
      ensures !IsDescendant(r[m].name, inodes[0].name)
    {
      assert r[m] == inodes[1 + d + m];
      if m > 0 {
        assert r[0] == inodes[1 + d];
        ContiguityAt(inodes, 0, 1 + d, 1 + d + m);
      }
    }
  }

  lemma DeletedSubtreesUnvisitedCons(v: Visit, rest: seq<Visit>, inodes': seq<InodeEntry>)
    requires DeletedSubtreesUnvisited(rest) && EntriesFrom(rest, inodes')
    requires v.DeleteVisit? ==> forall e :: e in inodes' ==> !IsDescendant(e.name, v.entry.name)
    ensures DeletedSubtreesUnvisited([v] + rest)
  {
    var s := [v] + rest;
    forall i, j | 0 <= i < j < |s| && s[i].DeleteVisit? && !s[j].CreateVisit?
      ensures !IsDescendant(s[j].entry.name, s[i].entry.name)
    {
      assert s[j] == rest[j - 1];
      if i > 0 {
        assert s[i] == rest[i - 1];
      } else {
        assert rest[j - 1].entry in inodes';
      }
    }
  }

  /** When the inode cursor lists every subtree contiguously after its root,
      no inode below a deleted one is ever handed to `syncOne` afterwards:
      the recursive delete covers the subtree and its children are skipped,
      not iterated. */
  lemma {:induction false} DeletedSubtreeNeverVisited(inodes: seq<InodeEntry>, ufs: seq<UfsStatus>)
    requires SubtreesContiguous(inodes)
    ensures DeletedSubtreesUnvisited(Schedule(inodes, ufs))
    decreases |inodes| + |ufs|
  {
    if |inodes| == 0 && |ufs| == 0 {
      return;
    }
    var v, inodes', ufs' := ScheduleStep(inodes, ufs);
    if v.DeleteVisit? {
      SkipLeavesNoDescendant(inodes);
    }
    ContiguousSuffix(inodes, |inodes| - |inodes'|);
    DeletedSubtreeNeverVisited(inodes', ufs');
    VisitedEntriesFromCursor(inodes', ufs');
    DeletedSubtreesUnvisitedCons(v, Schedule(inodes', ufs'), inodes');
  }

  // ---------------------------------------------------------------------
  // Resumption.

  lemma IncreasingSuffix(names: seq<Name>, d: nat)
    requires d <= |names| && StrictlyIncreasing(names)
    ensures StrictlyIncreasing(names[d..])
  {
    forall i, j | 0 <= i < j < |names| - d
      ensures Less(names[d..][i], names[d..][j])
    {
      assert names[d..][i] == names[d + i] && names[d..][j] == names[d + j];
    }
  }

  /** In an increasing sequence whose first `d` names compare at or before
      `from` and whose next one compares after it, exactly the names from
      position `d` on lie after `from`. */
  lemma LaterExactlyFrom(names: seq<Name>, d: nat, from: Name)
    requires StrictlyIncreasing(names) && d <= |names|
    requires forall k :: 0 <= k < d ==> CompareTo(names[k], from) <= 0
    requires d < |names| ==> CompareTo(names[d], from) > 0
    ensures forall k :: 0 <= k < |names| ==> (k >= d <==> Less(from, names[k]))
  {
    forall k | 0 <= k < |names|
      ensures k >= d <==> Less(from, names[k])
    {
      CompareToAntisymmetric(names[k], from);
      if k > d {
        CompareToAntisymmetric(names[d], from);
        LessTransitive(from, names[d], names[k]);
      }
    }
  }

  /** The names of a suffix starting at `d` are the names that lie after
      `from`, when those are exactly the positions from `d` on. */
  lemma SuffixMembership(names: seq<Name>, d: nat, from: Name)
    requires d <= |names|
    requires forall k :: 0 <= k < |names| ==> (k >= d <==> Less(from, names[k]))
    ensures forall n :: n in names[d..] <==> n in names && Less(from, n)
  {
    forall n
      ensures n in names[d..] <==> n in names && Less(from, n)
    {
      if n in names && Less(from, n) {
        var k :| 0 <= k < |names| && names[k] == n;
        assert names[d..][k - d] == n;
      }
    }
  }

  /** Over a strictly increasing cursor, the resume skip discards exactly the
      entries named at or before the resume point: what is kept is still
      increasing and holds every later name. */
  lemma DropThroughKeepsExactlyLater<T>(xs: seq<T>, nameOf: T -> Name, from: Name)
    requires StrictlyIncreasing(NamesOf(xs, nameOf))
    ensures StrictlyIncreasing(NamesOf(DropThrough(xs, nameOf, from), nameOf))
    ensures forall n :: n in NamesOf(DropThrough(xs, nameOf, from), nameOf)
                    <==> n in NamesOf(xs, nameOf) && Less(from, n)
  {
    var names := NamesOf(xs, nameOf);
    var r := DropThrough(xs, nameOf, from);
    var d := |xs| - |r|;
    assert NamesOf(r, nameOf) == names[d..];
    IncreasingSuffix(names, d);
    LaterExactlyFrom(names, d, from);
    SuffixMembership(names, d, from);
  }

  /** A resumed merge over strictly increasing cursors with no subtree
      skips (a non-recursive listing) handles exactly the names that sort
      after the resume point, each once, in order: nothing committed before
      the interruption is redone and nothing after it is missed. */
  lemma ResumeHandlesExactlyLaterNames(inodes: seq<InodeEntry>, ufs: seq<UfsStatus>, from: Name)
    requires StrictlyIncreasing(InodeNames(inodes)) && StrictlyIncreasing(UfsNames(ufs))
    requires NoDescendants(inodes)
    ensures var c := ResumeCursors(Some(from), inodes, ufs);
      var names := VisitNames(Schedule(c.inodes, c.ufs));
      && StrictlyIncreasing(names)
      && forall n :: n in names <==> (n in InodeNames(inodes) || n in UfsNames(ufs)) && Less(from, n)
  {
    var c := ResumeCursors(Some(from), inodes, ufs);
    DropThroughKeepsExactlyLater(inodes, EntryName, from);
    DropThroughKeepsExactlyLater(ufs, StatusName, from);
    NoDescendantsSuffix(inodes, |inodes| - |c.inodes|);
    MergeTotality(c.inodes, c.ufs);
  }

  /** What the resume skip leaves of a cursor, seen from its head. */
  lemma UpToFacts<T>(xs: seq<T>, nameOf: T -> Name, from: Name)
    ensures var a := UpTo(xs, nameOf, from);
      |a| > 0 ==> && a[0] == xs[0] && LessEq(nameOf(xs[0]), from)
                  && DropThrough(xs[1..], nameOf, from) == DropThrough(xs, nameOf, from)
                  && UpTo(xs[1..], nameOf, from) == a[1..]
    ensures |UpTo(xs, nameOf, from)| == 0 ==>
      DropThrough(xs, nameOf, from) == xs && (|xs| > 0 ==> Less(from, nameOf(xs[0])))
  {
    if |xs| > 0 {
      if CompareTo(nameOf(xs[0]), from) <= 0 {
        UpToHeadDropped(xs, nameOf, from);
      } else {
        UpToHeadKept(xs, nameOf, from);
      }
    }
  }

  lemma UpToHeadDropped<T>(xs: seq<T>, nameOf: T -> Name, from: Name)
    requires |xs| > 0 && CompareTo(nameOf(xs[0]), from) <= 0
    ensures var a := UpTo(xs, nameOf, from);
      && |a| > 0 && a[0] == xs[0]
      && DropThrough(xs[1..], nameOf, from) == DropThrough(xs, nameOf, from)
      && UpTo(xs[1..], nameOf, from) == a[1..]
  {
    var d := DropThrough(xs[1..], nameOf, from);
    assert DropThrough(xs, nameOf, from) == d;
    var n := |xs| - |d|;
    SliceShift(xs, n);
  }

  lemma SliceShift<T>(xs: seq<T>, n: nat)
    requires 1 <= n <= |xs|
    ensures xs[1..][..n - 1] == xs[..n][1..]
  {
  }

  lemma UpToHeadKept<T>(xs: seq<T>, nameOf: T -> Name, from: Name)
    requires |xs| > 0 && CompareTo(nameOf(xs[0]), from) > 0
    ensures |UpTo(xs, nameOf, from)| == 0 && DropThrough(xs, nameOf, from) == xs
    ensures Less(from, nameOf(xs[0]))
  {
    CompareToAntisymmetric(nameOf(xs[0]), from);
  }

  lemma NoDescendantsPrefix(inodes: seq<InodeEntry>, d: nat)
    requires d <= |inodes| && NoDescendants(inodes)
    ensures NoDescendants(inodes[..d])
  {
    forall i, j | 0 <= i < j < d
      ensures !IsDescendant(inodes[..d][j].name, inodes[..d][i].name)
    {
      assert inodes[..d][j] == inodes[j] && inodes[..d][i] == inodes[i];
    }
  }

  /** Without subtree skips (a non-recursive listing), the schedule of a
      whole listing is the schedule of the part at or before the resume
      point followed by the schedule of a merge resumed from it. */
  lemma {:induction false} ResumeSplitsSchedule(inodes: seq<InodeEntry>, ufs: seq<UfsStatus>, from: Name)
    requires NoDescendants(inodes)
    ensures Schedule(inodes, ufs)
         == Schedule(UpTo(inodes, EntryName, from), UpTo(ufs, StatusName, from))
          + Schedule(DropThrough(inodes, EntryName, from), DropThrough(ufs, StatusName, from))
    decreases |inodes| + |ufs|
  {
    var a, b := UpTo(inodes, EntryName, from), UpTo(ufs, StatusName, from);
    UpToFacts(inodes, EntryName, from);
    UpToFacts(ufs, StatusName, from);
    if |a| == 0 && |b| == 0 {
      return;
    }
    if |a| > 0 {
      NoDescendantsPrefix(inodes, |a|);
      SkipDropsNothing(inodes);
      SkipDropsNothing(a);
      NoDescendantsSuffix(inodes, 1);
      if |b| == 0 && |ufs| > 0 {
        LessEqLessTransitive(inodes[0].name, from, ufs[0].name);
      }
    } else if |inodes| > 0 {
      LessEqLessTransitive(ufs[0].name, from, inodes[0].name);
    }
    var tail := Schedule(DropThrough(inodes, EntryName, from), DropThrough(ufs, StatusName, from));
    var c := Classify(InodeName(Head(inodes)), UfsName(Head(ufs)));
    assert Classify(InodeName(Head(a)), UfsName(Head(b))) == c;
    var v: Visit, inodes', ufs', a', b';
    match c {
      case CreateFromUfs =>
        v, inodes', ufs', a', b' := CreateVisit(ufs[0]), inodes, ufs[1..], a, b[1..];
      case DeleteFromAlluxio =>
        v, inodes', ufs', a', b' := DeleteVisit(inodes[0]), inodes[1..], ufs, a[1..], b;
      case Reconcile =>
        v, inodes', ufs', a', b' := ReconcileVisit(ufs[0], inodes[0]), inodes[1..], ufs[1..], a[1..], b[1..];
    }
    assert Schedule(inodes, ufs) == [v] + Schedule(inodes', ufs');
    assert Schedule(a, b) == [v] + Schedule(a', b');
    assert a' == UpTo(inodes', EntryName, from) && b' == UpTo(ufs', StatusName, from);
    ResumeSplitsSchedule(inodes', ufs', from);
    ConcatAssociative([v], Schedule(a', b'), tail);
  }

  /** An instantiation point for associativity, kept as a lemma so that the
      proof above does not see the sequence axioms at large. */
  lemma ConcatAssociative<T>(x: seq<T>, y: seq<T>, z: seq<T>)
    ensures x + (y + z) == (x + y) + z
  {
  }

  /** Without subtree skips (a non-recursive listing), a merge interrupted
      once everything up to the resume point has been handled, then resumed
      from that point, issues the same calls and ends the same way as one
      uninterrupted merge. */
  lemma ResumeAfterInterruption(env: Env, ctx: SyncContext, root: string,
                                inodes: seq<InodeEntry>, ufs: seq<UfsStatus>, from: Name)
    requires NoDescendants(inodes)
    ensures MergeLoop(env, ctx, root, inodes, ufs)
         == AndThen(MergeLoop(env, ctx, root, UpTo(inodes, EntryName, from), UpTo(ufs, StatusName, from)),
                    UpdateMetadata(env, ctx, root, inodes, ufs, Some(from)))
  {
    var a, b := UpTo(inodes, EntryName, from), UpTo(ufs, StatusName, from);
    var c := ResumeCursors(Some(from), inodes, ufs);
    MergeIsScheduledRun(env, ctx, root, inodes, ufs);
    MergeIsScheduledRun(env, ctx, root, a, b);
    MergeIsScheduledRun(env, ctx, root, c.inodes, c.ufs);
    ResumeSplitsSchedule(inodes, ufs, from);
    RunAppend(env, ctx, root, Schedule(a, b), Schedule(c.inodes, c.ufs));
  }
}

=== FILE: modes.dfy ===
/** POSIX-style permission modes as the syncer builds them from a UFS status:
    a 16-bit `short` split into owner, group and other bit triples. The
    `Mode` class itself is not part of this model; its split of a short
    into three 3-bit groups is. */
module Modes {

  /** A Java `short`. */
  type Short = x: int | -0x8000 <= x < 0x8000

  /** One read/write/execute triple. */
  type Bits = bv3

  datatype Mode = Mode(owner: Bits, group: Bits, other: Bits)

  /** Bit `i` (0 = execute, 1 = write, 2 = read) of a triple is set. */
  predicate HasBit(b: Bits, i: nat)
    requires i < 3
  {
    (b >> i) & 1 == 1
  }

  /** The low nine bits of a mode as a number: owner, group, other. */
  function ToShort(m: Mode): (s: int)
    ensures 0 <= s < 512
  {
    m.owner as int * 64 + m.group as int * 8 + m.other as int
  }

  /** `new Mode(short)`: bits 6-8 are the owner's, 3-5 the group's, 0-2 the
      others'; higher bits and the sign are dropped. Java's `(s >> k) & 7`
      is `(s / 2^k) % 8` with Dafny's flooring division. */
  function FromShort(s: int): (m: Mode)
    ensures ToShort(m) == s % 512
  {
    var owner, group, other := (s / 64) % 8, (s / 8) % 8, s % 8;
    ResidueDigits(s);
    TripleRoundTrip(owner);
    TripleRoundTrip(group);
    TripleRoundTrip(other);
    Mode(owner as Bits, group as Bits, other as Bits)
  }

  /** The three octal digits of `s` make up `s % 512`. */
  lemma ResidueDigits(s: int)
    ensures ((s / 64) % 8) * 64 + ((s / 8) % 8) * 8 + s % 8 == s % 512
  {
    var q, r := s / 512, s % 512;
    var o, g, t := r / 64, (r % 64) / 8, r % 8;
    DivModUnique(r, 64, o, r % 64);
    DivModUnique(r % 64, 8, g, t);
    DivModUnique(s, 64, 8 * q + o, r % 64);
    DivModUnique(s / 64, 8, q, o);
    DivModUnique(s, 8, 64 * q + 8 * o + g, t);
    DivModUnique(s / 8, 8, 8 * q + o, g);
  }

  /** Division is determined by the quotient and remainder it must produce. */
  lemma DivModUnique(s: int, d: int, q: int, r: int)
    requires d > 0 && 0 <= r < d && s == d * q + r
    ensures s / d == q && s % d == r
  {
    var q', r' := s / d, s % d;
    assert d * (q - q') == r' - r by {
      assert d * q + r == d * q' + r';
      assert d * (q - q') == d * q - d * q';
    }
    if q > q' {
      MulAtLeast(d, q - q');
    } else if q < q' {
      MulAtLeast(d, q' - q);
    }
  }

  lemma MulAtLeast(d: int, k: int)
    requires d > 0 && k >= 1
    ensures d * k >= d
  {
    assert d * k == d + d * (k - 1);
  }

  lemma TripleRoundTrip(x: int)
    requires 0 <= x < 8
    ensures (x as Bits) as int == x
  {
  }

  /** Reading back the number a mode was written as gives the same mode. */
  lemma FromShortToShort(m: Mode)
    ensures FromShort(ToShort(m)) == m
  {
    var o, g, t := m.owner as int, m.group as int, m.other as int;
    DigitsOfTriples(o, g, t);
    var r := FromShort(o * 64 + g * 8 + t);
    assert r == Mode(o as Bits, g as Bits, t as Bits);
    BitsRoundTrip(m.owner);
    BitsRoundTrip(m.group);
    BitsRoundTrip(m.other);
  }

  lemma DigitsOfTriples(o: int, g: int, t: int)
    requires 0 <= o < 8 && 0 <= g < 8 && 0 <= t < 8
    ensures ((o * 64 + g * 8 + t) / 64) % 8 == o
    ensures ((o * 64 + g * 8 + t) / 8) % 8 == g
    ensures (o * 64 + g * 8 + t) % 8 == t
  {
    var s := o * 64 + g * 8 + t;
    assert s / 8 == o * 8 + g;
    assert s / 64 == o;
  }

  lemma BitsRoundTrip(b: Bits)
    ensures (b as int) as Bits == b
  {
  }

  /** The shared-mount rule of file and directory creation: when the mount is
      shared, every permission the owner has is granted to others as well;
      owner and group bits never change. */
  function ShareWithOthers(m: Mode, shared: bool): (r: Mode)
    ensures r.owner == m.owner && r.group == m.group
    ensures !shared ==> r == m
    ensures shared ==> forall i :: 0 <= i < 3 ==>
      (HasBit(r.other, i) <==> HasBit(m.other, i) || HasBit(m.owner, i))
  {
    if shared then m.(other := m.other | m.owner) else m
  }

  /** Sharing is idempotent: a mode already shared gains nothing more. */
  lemma ShareIdempotent(m: Mode, shared: bool)
    ensures ShareWithOthers(ShareWithOthers(m, shared), shared) == ShareWithOthers(m, shared)
  {
  }
}

=== FILE: mutations.dfy ===
/** How the syncer turns one UFS status into a call on the file system master:
    `createInodeFileMetadata`, `createInodeDirectoryMetadata`,
    `updateInodeMetadata` and `deleteFile`. */
module Mutations {
  import opened Wrappers
  import opened Modes
  import opened SyncModel

  /** The TTL options a loaded file gets: none at all when the
      ignore-TTL flag is set, otherwise the sync context's. */
  function FileCommonOptions(ignoreTtl: bool, contextOptions: CommonOptions): (r: CommonOptions)
    ensures ignoreTtl ==> r.ttl == -1 && r.ttlAction == Unset
    ensures !ignoreTtl ==> r == contextOptions
  {
    var chosen := if ignoreTtl then NoTtlOption else contextOptions;
    CommonOptions(chosen.ttl, chosen.ttlAction)
  }

  /** The recursive, Alluxio-only, unchecked delete the syncer issues. */
  const SyncDelete := DeleteContext(recursive := true, alluxioOnly := true, unchecked := true, metadataLoad := true)

  /** Files and directories created by the same sync get different TTLs
      only when the ignore-TTL flag is set and the context's TTL is not
      already -1. */
  lemma TtlDiffersOnlyWhenIgnored(env: Env, ctx: SyncContext, filePath: AlluxioPath, file: UfsStatus,
                                  dirPath: AlluxioPath, dir: UfsStatus)
    requires file.IsFile() && file.blockSize != UnknownBlockSize
    ensures CreateInodeFileMetadata(env, ctx, filePath, file, None).Ok?
    ensures CreateInodeFileMetadata(env, ctx, filePath, file, None).value.fileCtx.commonOptions.ttl
              != CreateInodeDirectoryMetadata(env, ctx, dirPath, dir).dirCtx.commonOptions.ttl
        <==> env.ignoreTtl && ctx.commonOptions.ttl != -1
  {
  }

  /** `deleteFile`. */
  function DeleteFile(path: AlluxioPath): (m: Mutation)
    ensures m.DeleteRecursive? && m.path == path
    ensures m.deleteCtx.recursive && m.deleteCtx.alluxioOnly && m.deleteCtx.unchecked && m.deleteCtx.metadataLoad
  {
    DeleteRecursive(path, SyncDelete)
  }

  /** The mode a created inode gets: the UFS mode, with the owner's bits
      granted to others when the mount is shared. */
  function CreationMode(ufsMode: Short, shared: bool): (m: Mode)
    ensures SharedModeRule(m, ufsMode, shared)
  {
    ShareWithOthers(FromShort(ufsMode), shared)
  }

  /** `createInodeFileMetadata`. The status is cast to a file status first (a
      directory status fails the cast); an unknown block size is fatal and
      nothing is created. The resolution hint, when given, stands in for
      resolving the path again. */
  function CreateInodeFileMetadata(env: Env, ctx: SyncContext, path: AlluxioPath, ufs: UfsStatus,
                                   resolutionHint: Option<Resolution>): (r: Result<Mutation, SyncError>)
    ensures ufs.IsDirectory() ==> r == Err(ClassCast(path))
    ensures ufs.IsFile() && ufs.blockSize == UnknownBlockSize ==> r == Err(UnknownBlockSizeError(path))
    ensures r.Ok? <==> ufs.IsFile() && ufs.blockSize != UnknownBlockSize
    ensures r.Ok? ==> IsFileCreationFor(r.value, env, ctx, path, ufs, resolutionHint)
  {
    var resolution := if resolutionHint.Some? then resolutionHint.value else env.resolve(path);
    if !ufs.IsFile() then Err(ClassCast(path))
    else if ufs.blockSize == UnknownBlockSize then Err(UnknownBlockSizeError(path))
    else
      var fileCtx := CreateFileContext(
        blockSizeBytes := ufs.blockSize,
        recursive := false,
        commonOptions := FileCommonOptions(env.ignoreTtl, ctx.commonOptions),
        writeType := Through,
        metadataLoad := true,
        owner := ufs.owner,
        group := ufs.group,
        xattr := ufs.xattr,
        mode := CreationMode(ufs.mode, resolution.shared),
        operationTimeMs := ufs.lastModifiedTime);
      Ok(CreateFile(path, fileCtx, ufs))
  }

  /** What a file creation for `ufs` at `path` promises: a non-recursive,
      write-through, metadata-load creation carrying the UFS block size,
      owner, group, extended attributes and modification time, the shared
      mount rule applied to the mode, and TTL -1 when TTL is ignored. */
  ghost predicate IsFileCreationFor(m: Mutation, env: Env, ctx: SyncContext, path: AlluxioPath,
                                    ufs: UfsStatus, resolutionHint: Option<Resolution>)
  {
    var shared := if resolutionHint.Some? then resolutionHint.value.shared else env.resolve(path).shared;
    && m.CreateFile? && m.path == path && m.status == ufs && ufs.IsFile()
    && m.fileCtx.blockSizeBytes == ufs.blockSize != UnknownBlockSize
    && !m.fileCtx.recursive && m.fileCtx.writeType == Through && m.fileCtx.metadataLoad
    && m.fileCtx.owner == ufs.owner && m.fileCtx.group == ufs.group && m.fileCtx.xattr == ufs.xattr
    && m.fileCtx.operationTimeMs == ufs.lastModifiedTime
    && SharedModeRule(m.fileCtx.mode, ufs.mode, shared)
    && (env.ignoreTtl ==> m.fileCtx.commonOptions == NoTtlOption)
    && (!env.ignoreTtl ==> m.fileCtx.commonOptions == ctx.commonOptions)
  }

  /** The mode of a created inode relates to the UFS mode by the shared rule:
      owner and group bits are the UFS ones; other bits are the UFS ones,
      joined by the owner's bits exactly when the mount is shared. */
  ghost predicate SharedModeRule(created: Mode, ufsMode: Short, shared: bool)
  {
    var u := FromShort(ufsMode);
    && created.owner == u.owner && created.group == u.group
    && (!shared ==> created.other == u.other)
    && (forall i :: 0 <= i < 3 ==> (HasBit(created.other, i) <==> HasBit(u.other, i) || (shared && HasBit(u.owner, i))))
  }

  /** `createInodeDirectoryMetadata`: never fails; carries the mount-point
      flag of the path and takes the context's TTL whatever the ignore-TTL
      flag says. */
  function CreateInodeDirectoryMetadata(env: Env, ctx: SyncContext, path: AlluxioPath, ufs: UfsStatus): (m: Mutation)
    ensures IsDirectoryCreationFor(m, env, ctx, path, ufs)
  {
    var resolution := env.resolve(path);
    var dirCtx := CreateDirectoryContext(
      recursive := false,
      allowExists := false,
      commonOptions := CommonOptions(ctx.commonOptions.ttl, ctx.commonOptions.ttlAction),
      mountPoint := env.isMountPoint(path),
      metadataLoad := true,
      writeType := Through,
      mode := CreationMode(ufs.mode, resolution.shared),
      owner := ufs.owner,
      group := ufs.group,
      ufsStatus := ufs,
      xattr := ufs.xattr,
      operationTimeMs := ufs.lastModifiedTime);
    CreateDirectory(path, resolution.ufsUri, dirCtx)
  }

  /** What a directory creation for `ufs` at `path` promises. */
  ghost predicate IsDirectoryCreationFor(m: Mutation, env: Env, ctx: SyncContext, path: AlluxioPath, ufs: UfsStatus)
  {
    && m.CreateDirectory? && m.path == path && m.ufsUri == env.resolve(path).ufsUri
    && !m.dirCtx.recursive && !m.dirCtx.allowExists && m.dirCtx.metadataLoad && m.dirCtx.writeType == Through
    && m.dirCtx.mountPoint == env.isMountPoint(path)
    && m.dirCtx.owner == ufs.owner && m.dirCtx.group == ufs.group && m.dirCtx.ufsStatus == ufs
    && m.dirCtx.xattr == ufs.xattr && m.dirCtx.operationTimeMs == ufs.lastModifiedTime
    && SharedModeRule(m.dirCtx.mode, ufs.mode, env.resolve(path).shared)
    && m.dirCtx.commonOptions == ctx.commonOptions
  }

  /** `updateInodeMetadata`: sets the UFS mode unchanged (no shared rule) and
      the new fingerprint. The owner field receives the UFS group when that
      is non-empty, else the UFS owner when that is non-empty; the group
      field is never set. */
  function UpdateInodeMetadata(path: AlluxioPath, ufs: UfsStatus, fingerprint: Fingerprint): (m: Mutation)
    ensures m.SetAttribute? && m.path == path
    ensures ToShort(m.attrCtx.mode) == ufs.mode % 512
    ensures ufs.group != "" ==> m.attrCtx.owner == Some(ufs.group)
    ensures ufs.group == "" && ufs.owner != "" ==> m.attrCtx.owner == Some(ufs.owner)
    ensures ufs.group == "" && ufs.owner == "" ==> m.attrCtx.owner == None
    ensures m.attrCtx.group == None
    ensures m.attrCtx.ufsFingerprint == fingerprint && m.attrCtx.metadataLoad
  {
    var withOwner: Option<string> := if ufs.owner != "" then Some(ufs.owner) else None;
    var owner := if ufs.group != "" then Some(ufs.group) else withOwner;
    SetAttribute(path, SetAttributeContext(FromShort(ufs.mode), owner, None, fingerprint, true))
  }
}

=== FILE: position_reader.dfy ===
/** `PositionReader`: the argument checks and zero-length shortcut a
    positioned read performs before handing over to the implementation's
    `positionReadInternal`, and the byte-array overloads that delegate to it. */
module PositionReader {
  import opened Wrappers

  type Int32 = x: int | -0x8000_0000 <= x < 0x8000_0000
  type Int64 = x: int | -0x8000_0000_0000_0000 <= x < 0x8000_0000_0000_0000

  /** A Java `byte[]`: its length is a non-negative `int`. */
  type ByteArray = s: seq<bv8> | |s| < 0x8000_0000

  /** Java `int` arithmetic: the result taken modulo 2^32 into the `int` range. */
  function Wrap32(x: int): (w: Int32)
    ensures (x - w) % 0x1_0000_0000 == 0
    ensures -0x8000_0000 <= x < 0x8000_0000 ==> w == x
  {
    (x + 0x8000_0000) % 0x1_0000_0000 - 0x8000_0000
  }

  /** `PageReadTargetBuffer`: where read bytes go. A byte array is written
      from `offset` on; the other kinds are reduced to their space left. */
  datatype TargetBuffer =
    | ByteArrayTarget(bytes: ByteArray, offset: Int32)
    | ByteBufferTarget(remainingBytes: nat)
    | NettyBufTarget(writableBytes: nat)
  {
    /** `remaining()`: how many bytes the buffer can still take. For an array
        it is the length minus the offset, an `int` subtraction that wraps
        once the offset lies 2^31 or more below the length. */
    function Remaining(): (n: int)
      ensures ByteArrayTarget? ==>
        n == if |bytes| - offset < 0x8000_0000 then |bytes| - offset else |bytes| - offset - 0x1_0000_0000
    {
      match this
      case ByteArrayTarget(bytes, offset) => Wrap32(|bytes| - offset)
      case ByteBufferTarget(n) => n
      case NettyBufTarget(n) => n
    }
  }

  /** A read's count (or -1 when nothing was read) and the buffer after it. */
  datatype Read = Read(count: Int32, buffer: TargetBuffer)

  /** The exceptions a positioned read can throw. */
  datatype ReadError =
    | IllegalArgument(message: string)
    | IO(message: string)

  const LengthNegative := "length should be non-negative"
  const PositionNegative := "position should be non-negative"
  const NotEnoughSpace := "given buffer should have enough space to write given length"

  /** An implementation: its `positionReadInternal`. */
  datatype Reader = Reader(internal: (Int64, TargetBuffer, Int32) -> Result<Read, ReadError>)

  /** The arguments pass every check. */
  predicate Admissible(position: Int64, buffer: TargetBuffer, length: Int32)
  {
    length >= 0 && position >= 0 && buffer.Remaining() >= length
  }

  /** `positionRead(long, PageReadTargetBuffer, int)`. */
  function PositionRead(reader: Reader, position: Int64, buffer: TargetBuffer, length: Int32): (r: Result<Read, ReadError>)
    // the checks, in order: length, position, space
    ensures length < 0 ==> r == Err(IllegalArgument(LengthNegative))
    ensures length >= 0 && position < 0 ==> r == Err(IllegalArgument(PositionNegative))
    ensures length >= 0 && position >= 0 && buffer.Remaining() < length ==> r == Err(IllegalArgument(NotEnoughSpace))
    // a read of nothing reads nothing and leaves the buffer as it was
    ensures Admissible(position, buffer, length) && length == 0 ==> r == Ok(Read(0, buffer))
    // otherwise the implementation's answer, exception or count, unchanged
    ensures Admissible(position, buffer, length) && length > 0 ==> r == reader.internal(position, buffer, length)
  {
    if length < 0 then Err(IllegalArgument(LengthNegative))
    else if position < 0 then Err(IllegalArgument(PositionNegative))
    else if buffer.Remaining() < length then Err(IllegalArgument(NotEnoughSpace))
    else if length == 0 then Ok(Read(0, buffer))
    else reader.internal(position, buffer, length)
  }

  /** `positionRead(long, byte[], int, int)`: the array written from `offset`. */
  function PositionReadBytesAt(reader: Reader, position: Int64, bytes: ByteArray, offset: Int32, length: Int32): (r: Result<Read, ReadError>)
    // the space check on an array: the read ends within it, and the length
    // minus the offset does not wrap
    ensures length >= 0 && position >= 0 && (offset + length > |bytes| || |bytes| - offset >= 0x8000_0000) ==>
      r == Err(IllegalArgument(NotEnoughSpace))
    ensures length > 0 && position >= 0 && offset + length <= |bytes| && |bytes| - offset < 0x8000_0000 ==>
      r == reader.internal(position, ByteArrayTarget(bytes, offset), length)
    ensures length == 0 && position >= 0 && offset <= |bytes| && |bytes| - offset < 0x8000_0000 ==>
      r == Ok(Read(0, ByteArrayTarget(bytes, offset)))
  {
    PositionRead(reader, position, ByteArrayTarget(bytes, offset), length)
  }

  /** `positionRead(long, byte[], int)`: the array written from its start. */
  function PositionReadBytes(reader: Reader, position: Int64, bytes: ByteArray, length: Int32): (r: Result<Read, ReadError>)
    ensures r == PositionReadBytesAt(reader, position, bytes, 0, length)
  {
    PositionRead(reader, position, ByteArrayTarget(bytes, 0), length)
  }

  /** The implementation is consulted only for a non-empty read that passed
      every check: otherwise any two implementations give the same answer. */
  lemma InternalOnlyForNonEmptyAdmissible(reader: Reader, other: Reader, position: Int64, buffer: TargetBuffer, length: Int32)
    requires !Admissible(position, buffer, length) || length == 0
    ensures PositionRead(reader, position, buffer, length) == PositionRead(other, position, buffer, length)
  {
  }

  /** With an implementation that throws only I/O exceptions, a read fails
      with an argument exception exactly when its arguments are inadmissible. */
  lemma CheckErrorsExactlyInadmissible(reader: Reader, position: Int64, buffer: TargetBuffer, length: Int32)
    requires forall p, b, n :: reader.internal(p, b, n).Err? ==> reader.internal(p, b, n).error.IO?
    ensures PositionRead(reader, position, buffer, length).Err? && PositionRead(reader, position, buffer, length).error.IllegalArgument?
        <==> !Admissible(position, buffer, length)
  {
  }

  /** The offset of a byte array is not checked on its own: a negative offset
      whose read still ends within the array, and whose length minus offset
      does not wrap, passes the space check and reaches the implementation. */
  lemma NegativeOffsetReachesInternal(reader: Reader, position: Int64, bytes: ByteArray, offset: Int32, length: Int32)
    requires offset < 0 && length > 0 && position >= 0 && offset + length <= |bytes|
    requires |bytes| - offset < 0x8000_0000
    ensures PositionReadBytesAt(reader, position, bytes, offset, length) == reader.internal(position, ByteArrayTarget(bytes, offset), length)
  {
  }

  /** An offset 2^31 or more below the array's length makes `remaining()`
      wrap to a negative count: any read of at least one byte is then refused
      by the space check, however the read would otherwise end. */
  lemma WrappedRemainingRejects(reader: Reader, position: Int64, bytes: ByteArray, offset: Int32, length: Int32)
    requires length > 0 && position >= 0 && |bytes| - offset >= 0x8000_0000
    ensures ByteArrayTarget(bytes, offset).Remaining() < 0
    ensures PositionReadBytesAt(reader, position, bytes, offset, length) == Err(IllegalArgument(NotEnoughSpace))
  {
  }
}

=== FILE: sync_model.dfy ===
/** The entities the metadata syncer reads and writes: UFS statuses, inodes
    as the inode iterator yields them, the sync context, the collaborators'
    answers (mount resolution, fingerprint, sync plan) and the mutations the
    syncer issues: four calls into the file system master and the inode
    tree's marking of a directory's children as loaded. */
module SyncModel {
  import opened Wrappers
  import opened Modes

  /** A Java `long`. */
  type Long = x: int | -0x8000_0000_0000_0000 <= x < 0x8000_0000_0000_0000

  /** An entry name relative to the sync root, as the two cursors report it. */
  type Name = string

  /** Extended attributes; `None` is a null map. */
  type XAttr = Option<map<string, seq<bv8>>>

  /** `UfsFileStatus.UNKNOWN_BLOCK_SIZE`. `UfsFileStatus` is not part of this
      model; the value is the one that class declares. */
  const UnknownBlockSize: Long := -1

  /** A status returned by the under file system listing (`UfsStatus`). */
  datatype UfsStatus =
    | UfsFileStatus(name: Name, owner: string, group: string, mode: Short,
                    xattr: XAttr, lastModifiedTime: Option<Long>, blockSize: Long)
    | UfsDirectoryStatus(name: Name, owner: string, group: string, mode: Short,
                         xattr: XAttr, lastModifiedTime: Option<Long>)
  {
    predicate IsFile() { UfsFileStatus? }
    predicate IsDirectory() { UfsDirectoryStatus? }
  }

  /** A serialized `Fingerprint`. */
  type Fingerprint = string

  /** The inode store's view of a file or directory. */
  datatype Inode = Inode(id: Long, name: string, isDirectory: bool, ufsFingerprint: Fingerprint)

  /** `InodeIterationResult`: an inode with its name relative to the sync root. */
  datatype InodeEntry = InodeEntry(inode: Inode, name: Name)

  /** `TtlAction`; `Unset` is whatever an unset protobuf field reads as. */
  datatype TtlAction = Unset | Delete | Free | DeleteAlluxio

  /** The TTL part of `FileSystemMasterCommonPOptions`. */
  datatype CommonOptions = CommonOptions(ttl: Long, ttlAction: TtlAction)

  /** `NO_TTL_OPTION`: TTL -1, action left unset. */
  const NoTtlOption := CommonOptions(-1, Unset)

  /** `MetadataSyncContext`: what one sync invocation was asked to do. */
  datatype SyncContext = SyncContext(recursive: bool, startAfter: Option<Name>, commonOptions: CommonOptions)

  /** `UfsSyncUtils.SyncPlan`. */
  datatype SyncPlan = SyncPlan(toUpdateMetaData: bool, toDelete: bool, toLoadMetadata: bool)
  {
    predicate AnyFlag() { toUpdateMetaData || toDelete || toLoadMetadata }
  }

  /** `syncRootPath.join(name)`; path normalisation is not modelled. */
  datatype AlluxioPath = Join(root: string, name: Name)

  /** `MountTable.Resolution`: the shared bit, the UFS type and UFS URI of a path. */
  datatype Resolution = Resolution(shared: bool, ufsType: string, ufsUri: string)

  /** The collaborators whose code is not part of this model, as oracles:
      the mount table, `Fingerprint.create`, `UfsSyncUtils.computeSyncPlan`,
      and the `MASTER_METADATA_SYNC_IGNORE_TTL` configuration flag. */
  datatype Env = Env(
    resolve: AlluxioPath -> Resolution,
    isMountPoint: AlluxioPath -> bool,
    containsMountPoint: AlluxioPath -> bool,
    fingerprint: (string, UfsStatus) -> Fingerprint,
    computeSyncPlan: (Inode, Fingerprint, bool) -> SyncPlan,
    ignoreTtl: bool)

  datatype WriteType = Through

  /** The options of `CreateFileContext` the syncer sets. `operationTimeMs`
      is `None` when left at the context's default. */
  datatype CreateFileContext = CreateFileContext(
    blockSizeBytes: Long, recursive: bool, commonOptions: CommonOptions,
    writeType: WriteType, metadataLoad: bool, owner: string, group: string,
    xattr: XAttr, mode: Mode, operationTimeMs: Option<Long>)

  /** The options of `CreateDirectoryContext` the syncer sets. */
  datatype CreateDirectoryContext = CreateDirectoryContext(
    recursive: bool, allowExists: bool, commonOptions: CommonOptions,
    mountPoint: bool, metadataLoad: bool, writeType: WriteType, mode: Mode,
    owner: string, group: string, ufsStatus: UfsStatus, xattr: XAttr,
    operationTimeMs: Option<Long>)

  /** The options of `DeleteContext` the syncer sets. */
  datatype DeleteContext = DeleteContext(recursive: bool, alluxioOnly: bool, unchecked: bool, metadataLoad: bool)

  /** The options of `SetAttributeContext` the syncer sets; `None` is unset. */
  datatype SetAttributeContext = SetAttributeContext(
    mode: Mode, owner: Option<string>, group: Option<string>,
    ufsFingerprint: Fingerprint, metadataLoad: bool)

  /** One call the syncer issues, in order: a call into the file system
      master, or the inode tree's children-loaded marking. */
  datatype Mutation =
    | CreateFile(path: AlluxioPath, fileCtx: CreateFileContext, status: UfsStatus)
    | CreateDirectory(path: AlluxioPath, ufsUri: string, dirCtx: CreateDirectoryContext)
    | DeleteRecursive(path: AlluxioPath, deleteCtx: DeleteContext)
    | SetAttribute(path: AlluxioPath, attrCtx: SetAttributeContext)
    | SetDirectChildrenLoaded(syncRoot: string)
  {
    /** The call changes the inode at `p`. */
    predicate ActsOn(p: AlluxioPath)
    {
      !SetDirectChildrenLoaded? && path == p
    }
  }

  /** The exceptions a sync can end with. */
  datatype SyncError =
    | NullDereference
    | UnknownBlockSizeError(at: AlluxioPath)
    | IllegalState(message: string)
    | ClassCast(at: AlluxioPath)
    | NotADirectory(name: string)
}

=== FILE: sync_one.dfy ===
/** `syncOne`: the three-way case analysis for one pair of cursor heads, and
    the application of the sync plan when the names match. */
module SyncOneStep {
  import opened Wrappers
  import opened JavaString
  import opened SyncModel
  import opened Mutations

  /** `SingleInodeSyncResult` together with the calls the step issued. */
  datatype Step = Step(mutations: seq<Mutation>, moveUfs: bool, moveInode: bool, skipChildren: bool)

  /** A thrown exception, with the calls that completed before it. */
  datatype Failure = Failure(done: seq<Mutation>, error: SyncError)

  /** Which branch of `syncOne` a pair of cursor heads takes. */
  datatype Case = CreateFromUfs | DeleteFromAlluxio | Reconcile

  function InodeName(inode: Option<InodeEntry>): (n: Option<Name>)
  {
    if inode.Some? then Some(inode.value.name) else None
  }

  function UfsName(ufs: Option<UfsStatus>): (n: Option<Name>)
  {
    if ufs.Some? then Some(ufs.value.name) else None
  }

  /** The branch `syncOne` takes, decided by `compareTo` in the order the
      source tests it. A missing inode always takes the create branch, even
      when the UFS status is missing too. */
  function Classify(inodeName: Option<Name>, ufsName: Option<Name>): (c: Case)
    ensures c == CreateFromUfs <==> inodeName.None? || (ufsName.Some? && Less(ufsName.value, inodeName.value))
    ensures c == DeleteFromAlluxio <==> inodeName.Some? && (ufsName.None? || Less(inodeName.value, ufsName.value))
    ensures c == Reconcile <==> inodeName.Some? && inodeName == ufsName
  {
    var comparison: Option<int> :=
      if inodeName.Some? && ufsName.Some? then Some(CompareTo(inodeName.value, ufsName.value)) else None;
    ComparisonFacts(inodeName, ufsName);
    if inodeName.None? || (comparison.Some? && comparison.value > 0) then CreateFromUfs
    else if ufsName.None? || comparison.value < 0 then DeleteFromAlluxio
    else Reconcile
  }

  lemma ComparisonFacts(inodeName: Option<Name>, ufsName: Option<Name>)
    ensures inodeName.Some? && ufsName.Some? ==>
      && (CompareTo(inodeName.value, ufsName.value) > 0 <==> Less(ufsName.value, inodeName.value))
      && (CompareTo(inodeName.value, ufsName.value) == 0 <==> inodeName.value == ufsName.value)
  {
    if inodeName.Some? && ufsName.Some? {
      CompareToAntisymmetric(inodeName.value, ufsName.value);
      CompareToZeroIffEqual(inodeName.value, ufsName.value);
    }
  }

  /** The creation a UFS-only entry gets: a directory or a file, by the UFS type. */
  function CreateFor(env: Env, ctx: SyncContext, path: AlluxioPath, ufs: UfsStatus,
                     resolutionHint: Option<Resolution>): (r: Result<Mutation, SyncError>)
    ensures ufs.IsDirectory() ==> r.Ok? && IsDirectoryCreationFor(r.value, env, ctx, path, ufs)
    ensures ufs.IsFile() ==> r == CreateInodeFileMetadata(env, ctx, path, ufs, resolutionHint)
    ensures r.Err? <==> ufs.IsFile() && ufs.blockSize == UnknownBlockSize
    ensures r.Err? ==> r.error == UnknownBlockSizeError(path)
  {
    if ufs.IsDirectory() then Ok(CreateInodeDirectoryMetadata(env, ctx, path, ufs))
    else CreateInodeFileMetadata(env, ctx, path, ufs, resolutionHint)
  }

  /** A creation of the right kind for `ufs` at `path`. */
  ghost predicate IsCreationFor(m: Mutation, env: Env, ctx: SyncContext, path: AlluxioPath,
                                ufs: UfsStatus, resolutionHint: Option<Resolution>)
  {
    if ufs.IsDirectory() then IsDirectoryCreationFor(m, env, ctx, path, ufs)
    else IsFileCreationFor(m, env, ctx, path, ufs, resolutionHint)
  }

  const NeverReachHere := "We should never reach here."

  /** Applying a sync plan to an entry present on both sides, as the source
      is written: the replace branch always creates a file. It parts from
      the corrected `ApplyPlan` only when a UFS directory is to be replaced,
      where the delete is done and the cast to a file status then fails. */
  function ApplyPlanAsWritten(env: Env, ctx: SyncContext, path: AlluxioPath, plan: SyncPlan, ufs: UfsStatus,
                              fingerprint: Fingerprint, resolution: Resolution): (r: Result<seq<Mutation>, Failure>)
    ensures ufs.IsFile() ==> r == ApplyPlan(env, ctx, path, plan, ufs, fingerprint, resolution)
    ensures ufs.IsDirectory() ==>
      if !plan.toUpdateMetaData && plan.toDelete && plan.toLoadMetadata
      then r == Err(Failure([DeleteFile(path)], ClassCast(path)))
      else r == ApplyPlan(env, ctx, path, plan, ufs, fingerprint, resolution)
  {
    if !plan.AnyFlag() then Ok([])
    else if plan.toUpdateMetaData then Ok([UpdateInodeMetadata(path, ufs, fingerprint)])
    else if plan.toDelete && plan.toLoadMetadata then
      match CreateInodeFileMetadata(env, ctx, path, ufs, Some(resolution))
      case Ok(created) => Ok([DeleteFile(path), created])
      case Err(e) => Err(Failure([DeleteFile(path)], e))
    else Err(Failure([], IllegalState(NeverReachHere)))
  }

  /** Applying a sync plan to an entry present on both sides: nothing when no
      flag is set; only a metadata update when `toUpdateMetaData`; a delete
      followed by a re-creation when `toDelete` and `toLoadMetadata`; an
      `IllegalStateException` for any other flag combination. The
      re-creation is a file or a directory by the UFS type. */
  function ApplyPlan(env: Env, ctx: SyncContext, path: AlluxioPath, plan: SyncPlan, ufs: UfsStatus,
                     fingerprint: Fingerprint, resolution: Resolution): (r: Result<seq<Mutation>, Failure>)
    ensures !plan.AnyFlag() ==> r == Ok([])
    ensures plan.toUpdateMetaData ==>
      r.Ok? && |r.value| == 1 && r.value[0] == UpdateInodeMetadata(path, ufs, fingerprint)
    ensures !plan.toUpdateMetaData && plan.toDelete && plan.toLoadMetadata ==>
      match r
      case Ok(ms) => |ms| == 2 && ms[0] == DeleteFile(path) && IsCreationFor(ms[1], env, ctx, path, ufs, Some(resolution))
      case Err(f) => f.done == [DeleteFile(path)] && f.error == UnknownBlockSizeError(path)
                     && ufs.IsFile() && ufs.blockSize == UnknownBlockSize
    ensures !plan.toUpdateMetaData && plan.AnyFlag() && !(plan.toDelete && plan.toLoadMetadata) ==>
      r == Err(Failure([], IllegalState(NeverReachHere)))
    ensures r.Ok? ==> forall m :: m in r.value ==> m.ActsOn(path)
  {
    if !plan.AnyFlag() then Ok([])
    else if plan.toUpdateMetaData then Ok([UpdateInodeMetadata(path, ufs, fingerprint)])
    else if plan.toDelete && plan.toLoadMetadata then
      match CreateFor(env, ctx, path, ufs, Some(resolution))
      case Ok(created) => Ok([DeleteFile(path), created])
      case Err(e) => Err(Failure([DeleteFile(path)], e))
    else Err(Failure([], IllegalState(NeverReachHere)))
  }

  /** As written, replacing a file by a UFS directory deletes the inode and
      then fails the cast to a file status: the entry is left absent. */
  lemma ReplaceByDirectoryFailsAsWritten(env: Env, ctx: SyncContext, path: AlluxioPath, ufs: UfsStatus,
                                         fingerprint: Fingerprint, resolution: Resolution)
    requires ufs.IsDirectory()
    ensures ApplyPlanAsWritten(env, ctx, path, SyncPlan(false, true, true), ufs, fingerprint, resolution)
         == Err(Failure([DeleteFile(path)], ClassCast(path)))
  {
  }

  /** Corrected, a replace of any entry whose block size is known ends with
      the entry re-created at the same path, of the UFS type. */
  lemma ReplaceRecreates(env: Env, ctx: SyncContext, path: AlluxioPath, ufs: UfsStatus,
                         fingerprint: Fingerprint, resolution: Resolution)
    requires ufs.IsDirectory() || ufs.blockSize != UnknownBlockSize
    ensures var r := ApplyPlan(env, ctx, path, SyncPlan(false, true, true), ufs, fingerprint, resolution);
      && r.Ok? && |r.value| == 2 && r.value[0].DeleteRecursive?
      && r.value[1].path == path && (r.value[1].CreateDirectory? <==> ufs.IsDirectory())
  {
  }

  /** The path the step's write lock is taken on: the UFS name in the create
      branch, the inode name otherwise. */
  function LockedPath(root: string, ufs: Option<UfsStatus>, inode: Option<InodeEntry>): (p: AlluxioPath)
    ensures p.root == root
    ensures ufs.Some? && (inode.None? || Less(ufs.value.name, inode.value.name)) ==> p.name == ufs.value.name
    ensures inode.Some? && (ufs.None? || Less(inode.value.name, ufs.value.name)) ==> p.name == inode.value.name
    // on equal names the inode's path and the UFS entry's path are one
    ensures inode.Some? && ufs.Some? && inode.value.name == ufs.value.name ==> p.name == inode.value.name == ufs.value.name
  {
    if Classify(InodeName(inode), UfsName(ufs)) == CreateFromUfs then
      Join(root, if ufs.Some? then ufs.value.name else "")
    else Join(root, inode.value.name)
  }

  /** The plan `computeSyncPlan` returns for an entry present on both sides:
      the fingerprint of the UFS status, under the path's UFS type, against
      the inode, with the nested-mount flag. Part of the reconcile branch of
      `syncOne` (MetadataSyncer.java:274-283). */
  function PlanFor(env: Env, path: AlluxioPath, ufs: UfsStatus, inode: InodeEntry): (plan: SyncPlan)
  {
    var fingerprint := env.fingerprint(env.resolve(path).ufsType, ufs);
    env.computeSyncPlan(inode.inode, fingerprint, env.containsMountPoint(path))
  }

  /** `syncOne`. */
  function SyncOne(env: Env, ctx: SyncContext, root: string, ufs: Option<UfsStatus>,
                   inode: Option<InodeEntry>): (r: Result<Step, Failure>)
    // both heads absent: the disabled `assert` lets a null dereference through
    ensures ufs.None? && inode.None? ==> r == Err(Failure([], NullDereference))
    // UFS only: one creation of the UFS type; only the UFS cursor moves
    ensures ufs.Some? && (inode.None? || Less(ufs.value.name, inode.value.name)) ==>
      match r
      case Ok(step) => step.moveUfs && !step.moveInode && !step.skipChildren && |step.mutations| == 1
                       && IsCreationFor(step.mutations[0], env, ctx, Join(root, ufs.value.name), ufs.value, None)
      case Err(f) => f == Failure([], UnknownBlockSizeError(Join(root, ufs.value.name)))
                     && ufs.value.IsFile() && ufs.value.blockSize == UnknownBlockSize
    // Alluxio only: one recursive delete; the inode cursor skips the subtree and moves
    ensures inode.Some? && (ufs.None? || Less(inode.value.name, ufs.value.name)) ==>
      r == Ok(Step([DeleteFile(Join(root, inode.value.name))], false, true, true))
    // same name: the plan is applied; both cursors move, nothing is skipped
    ensures inode.Some? && ufs.Some? && inode.value.name == ufs.value.name ==>
      var path := Join(root, inode.value.name);
      var applied := ApplyPlanAsWritten(env, ctx, path, PlanFor(env, path, ufs.value, inode.value), ufs.value,
                               env.fingerprint(env.resolve(path).ufsType, ufs.value), env.resolve(path));
      match r
      case Ok(step) => step.moveUfs && step.moveInode && !step.skipChildren
                       && applied.Ok? && step.mutations == applied.value
      case Err(f) => applied == Err(f)
    // every step moves a cursor that has an entry, and only such cursors
    ensures r.Ok? ==> (r.value.moveUfs && ufs.Some?) || (r.value.moveInode && inode.Some?)
    ensures r.Ok? ==> (r.value.moveUfs ==> ufs.Some?) && (r.value.moveInode ==> inode.Some?)
    ensures r.Ok? ==> (r.value.skipChildren ==> r.value.moveInode)
    // the step's calls all act on the one locked path
    ensures r.Ok? ==> forall m :: m in r.value.mutations ==> m.ActsOn(LockedPath(root, ufs, inode))
    ensures r.Err? ==> forall m :: m in r.error.done ==> m.ActsOn(LockedPath(root, ufs, inode))
  {
    match Classify(InodeName(inode), UfsName(ufs))
    case CreateFromUfs =>
      if ufs.None? then Err(Failure([], NullDereference))
      else
        var path := Join(root, ufs.value.name);
        if ufs.value.IsDirectory() then Ok(Step([CreateInodeDirectoryMetadata(env, ctx, path, ufs.value)], true, false, false))
        else
          (match CreateInodeFileMetadata(env, ctx, path, ufs.value, None)
           case Ok(created) => Ok(Step([created], true, false, false))
           case Err(e) => Err(Failure([], e)))
    case DeleteFromAlluxio =>
      Ok(Step([DeleteFile(Join(root, inode.value.name))], false, true, true))
    case Reconcile =>
      var path := Join(root, inode.value.name);
      var resolution := env.resolve(path);
      var fingerprint := env.fingerprint(resolution.ufsType, ufs.value);
      var plan := PlanFor(env, path, ufs.value, inode.value);
      match ApplyPlanAsWritten(env, ctx, path, plan, ufs.value, fingerprint, resolution)
      case Ok(ms) => Ok(Step(ms, true, true, false))
      case Err(f) => Err(f)
  }

  /** As written, a same-name entry whose UFS counterpart is a directory and
      whose plan is to delete and load ends the sync with the inode deleted
      and the cast to a file status failed. */
  lemma SyncOneReplaceByDirectoryFails(env: Env, ctx: SyncContext, root: string, ufs: UfsStatus, inode: InodeEntry)
    requires ufs.IsDirectory() && ufs.name == inode.name
    requires PlanFor(env, Join(root, inode.name), ufs, inode) == SyncPlan(false, true, true)
    ensures SyncOne(env, ctx, root, Some(ufs), Some(inode))
         == Err(Failure([DeleteFile(Join(root, inode.name))], ClassCast(Join(root, inode.name))))
  {
  }

  /** The cursor directives of a step are fixed by the branch alone. */
  lemma DirectivesFollowCase(env: Env, ctx: SyncContext, root: string, ufs: Option<UfsStatus>, inode: Option<InodeEntry>)
    requires SyncOne(env, ctx, root, ufs, inode).Ok?
    ensures var step := SyncOne(env, ctx, root, ufs, inode).value;
      match Classify(InodeName(inode), UfsName(ufs))
      case CreateFromUfs => step.moveUfs && !step.moveInode && !step.skipChildren
      case DeleteFromAlluxio => !step.moveUfs && step.moveInode && step.skipChildren
      case Reconcile => step.moveUfs && step.moveInode && !step.skipChildren
  {
  }
}

=== FILE: syncer.dfy ===
/** `sync`: the step on the sync root itself, then, unless the UFS root is a
    file, the merge of the root's children and the marking of its direct
    children as loaded. */
module Syncer {
  import opened Wrappers
  import opened JavaString
  import opened SyncModel
  import opened Mutations
  import opened SyncOneStep
  import opened Merge

  /** `SyncResult`: whether the children of the root were synced, and the
      count of entries processed, which `sync` always reports as zero. */
  datatype SyncResult = SyncResult(wasDirectorySync: bool, entriesProcessed: int)

  /** What a sync did: its calls, in order, and its result or the exception
      it ended with. */
  datatype SyncOutcome = SyncOutcome(mutations: seq<Mutation>, result: Result<SyncResult, SyncError>)

  /** The root's cursor entry: the inode, named with a leading separator. */
  function RootEntry(inodeRoot: Option<Inode>): (e: Option<InodeEntry>)
    ensures e.Some? <==> inodeRoot.Some?
    ensures e.Some? ==> e.value.inode == inodeRoot.value
    // the name carries a leading separator, unlike the children's names
    ensures e.Some? ==> |e.value.name| == |inodeRoot.value.name| + 1
    ensures e.Some? ==> e.value.name[0] == '/' && e.value.name[1..] == inodeRoot.value.name
  {
    if inodeRoot.Some? then Some(InodeEntry(inodeRoot.value, "/" + inodeRoot.value.name)) else None
  }

  predicate IsFileRoot(ufsRoot: Option<UfsStatus>)
  {
    ufsRoot.Some? && ufsRoot.value.IsFile()
  }

  /** `sync(path, context)`. `ufsRoot` is the UFS status of the path (absent
      when the UFS reports it missing), `inodeRoot` the inode at the path as
      read before any change, `children` the inode store's children iterator
      and `listing` the UFS listing iterator, both already positioned by the
      context's start-after point. */
  function Sync(env: Env, ctx: SyncContext, path: string, ufsRoot: Option<UfsStatus>, inodeRoot: Option<Inode>,
                children: seq<InodeEntry>, listing: seq<UfsStatus>): (r: SyncOutcome)
    // an exception in the root step ends the sync with it
    ensures var rootStep := SyncOne(env, ctx, path, ufsRoot, RootEntry(inodeRoot));
      rootStep.Err? ==> r == SyncOutcome(rootStep.error.done, Err(rootStep.error.error))
    // a file root is synced alone: no children are touched
    ensures var rootStep := SyncOne(env, ctx, path, ufsRoot, RootEntry(inodeRoot));
      rootStep.Ok? && IsFileRoot(ufsRoot) ==> r == SyncOutcome(rootStep.value.mutations, Ok(SyncResult(false, 0)))
    // success: the root step, a merge without exception and, for a directory sync, a directory inode at the root
    ensures r.result.Ok? <==>
      && SyncOne(env, ctx, path, ufsRoot, RootEntry(inodeRoot)).Ok?
      && (IsFileRoot(ufsRoot)
          || (UpdateMetadata(env, ctx, path, children, listing, ctx.startAfter).error.None?
              && inodeRoot.Some? && inodeRoot.value.isDirectory))
    ensures r.result.Ok? ==> r.result.value.entriesProcessed == 0 && (r.result.value.wasDirectorySync <==> !IsFileRoot(ufsRoot))
    // a directory sync ends by marking the root's children loaded; every other call acts under the root
    ensures if r.result.Ok? && r.result.value.wasDirectorySync
      then |r.mutations| > 0 && r.mutations[|r.mutations| - 1] == SetDirectChildrenLoaded(path)
           && UnderRoot(r.mutations[..|r.mutations| - 1], path)
      else UnderRoot(r.mutations, path)
  {
    RootStepUnderRoot(env, ctx, path, ufsRoot, RootEntry(inodeRoot));
    match SyncOne(env, ctx, path, ufsRoot, RootEntry(inodeRoot))
    case Err(f) => SyncOutcome(f.done, Err(f.error))
    case Ok(step) =>
      if IsFileRoot(ufsRoot) then SyncOutcome(step.mutations, Ok(SyncResult(false, 0)))
      else
        var merged := UpdateMetadata(env, ctx, path, children, listing, ctx.startAfter);
        var done := step.mutations + merged.mutations;
        assert UnderRoot(done, path);
        FinishDirectorySync(path, inodeRoot, done, merged.error)
  }

  /** The end of a directory sync whose root step and merge issued `done`:
      the merge's exception, the root inode's dereference, and the marking of
      the root's direct children as loaded. Part of `sync`. */
  function FinishDirectorySync(path: string, inodeRoot: Option<Inode>, done: seq<Mutation>,
                               mergeError: Option<SyncError>): (r: SyncOutcome)
    ensures |r.mutations| >= |done| && r.mutations[..|done|] == done
    ensures mergeError.Some? ==> r == SyncOutcome(done, Err(mergeError.value))
    ensures mergeError.None? && inodeRoot.None? ==> r == SyncOutcome(done, Err(NullDereference))
    ensures r.result.Ok? <==> mergeError.None? && inodeRoot.Some? && inodeRoot.value.isDirectory
    ensures r.result.Ok? ==> r == SyncOutcome(done + [SetDirectChildrenLoaded(path)], Ok(SyncResult(true, 0)))
    ensures r.result.Err? ==> r.mutations == done
  {
    assert (done + [SetDirectChildrenLoaded(path)])[..|done|] == done;
    if mergeError.Some? then SyncOutcome(done, Err(mergeError.value))
    else if inodeRoot.None? then SyncOutcome(done, Err(NullDereference))
    else if !inodeRoot.value.isDirectory then SyncOutcome(done, Err(NotADirectory(inodeRoot.value.name)))
    else SyncOutcome(done + [SetDirectChildrenLoaded(path)], Ok(SyncResult(true, 0)))
  }

  /** Every call in `ms` acts on a path under `root`. */
  predicate UnderRoot(ms: seq<Mutation>, root: string)
  {
    forall m :: m in ms ==> !m.SetDirectChildrenLoaded? && m.path.root == root
  }

  /** The calls of a `syncOne` step, completed or not, act under its root. */
  lemma RootStepUnderRoot(env: Env, ctx: SyncContext, root: string, ufs: Option<UfsStatus>, inode: Option<InodeEntry>)
    ensures match SyncOne(env, ctx, root, ufs, inode)
      case Ok(step) => UnderRoot(step.mutations, root)
      case Err(f) => UnderRoot(f.done, root)
  {
    var p := LockedPath(root, ufs, inode);
    assert p.root == root;
  }

  /** A sync whose UFS root is a file never reads the children or the listing. */
  lemma FileRootIgnoresChildren(env: Env, ctx: SyncContext, path: string, ufsRoot: Option<UfsStatus>, inodeRoot: Option<Inode>,
                                children: seq<InodeEntry>, listing: seq<UfsStatus>,
                                children': seq<InodeEntry>, listing': seq<UfsStatus>)
    requires IsFileRoot(ufsRoot)
    ensures Sync(env, ctx, path, ufsRoot, inodeRoot, children, listing)
         == Sync(env, ctx, path, ufsRoot, inodeRoot, children', listing')
  {
  }

  /** A path missing from both the UFS and Alluxio fails at the root step
      before any call is made. */
  lemma BothRootsAbsentFail(env: Env, ctx: SyncContext, path: string, children: seq<InodeEntry>, listing: seq<UfsStatus>)
    ensures Sync(env, ctx, path, None, None, children, listing) == SyncOutcome([], Err(NullDereference))
  {
  }

  /** A directory sync issues the root step's calls, then the merge's, then,
      if the merge completed and the root inode was a directory, marks the
      root's direct children loaded. A root inode absent at the start fails
      only after the merge, even when the root step created it. */
  lemma DirectorySyncIsRootThenMerge(env: Env, ctx: SyncContext, path: string, ufsRoot: Option<UfsStatus>, inodeRoot: Option<Inode>,
                                     children: seq<InodeEntry>, listing: seq<UfsStatus>)
    requires !IsFileRoot(ufsRoot)
    requires SyncOne(env, ctx, path, ufsRoot, RootEntry(inodeRoot)).Ok?
    ensures var r := Sync(env, ctx, path, ufsRoot, inodeRoot, children, listing);
      var rootCalls := SyncOne(env, ctx, path, ufsRoot, RootEntry(inodeRoot)).value.mutations;
      var merged := UpdateMetadata(env, ctx, path, children, listing, ctx.startAfter);
      && r.mutations[..|rootCalls| + |merged.mutations|] == rootCalls + merged.mutations
      && (merged.error.Some? ==> r.result == Err(merged.error.value))
      && (merged.error.None? && inodeRoot.None? ==> r.result == Err(NullDereference))
  {
    var rootCalls := SyncOne(env, ctx, path, ufsRoot, RootEntry(inodeRoot)).value.mutations;
    var merged := UpdateMetadata(env, ctx, path, children, listing, ctx.startAfter);
    assert Sync(env, ctx, path, ufsRoot, inodeRoot, children, listing)
        == FinishDirectorySync(path, inodeRoot, rootCalls + merged.mutations, merged.error);
  }

  /** The root inode's entry carries a leading separator, so against a UFS
      root whose name begins with a character sorting after `/` it compares
      lower and takes the delete branch: the root step deletes the inode at
      the sync path joined with that name and asks for its subtree to be
      skipped. */
  lemma RootEntrySortsFirst(env: Env, ctx: SyncContext, path: string, ufsRoot: UfsStatus, inodeRoot: Inode)
    requires |ufsRoot.name| > 0 && ufsRoot.name[0] > '/'
    ensures SyncOne(env, ctx, path, Some(ufsRoot), RootEntry(Some(inodeRoot)))
         == Ok(Step([DeleteFile(Join(path, "/" + inodeRoot.name))], false, true, true))
  {
    var rootName := "/" + inodeRoot.name;
    assert rootName[0] == '/';
    assert Less(rootName, ufsRoot.name);
  }
}

=== FILE: wrappers.dfy ===
/** Option and Result, the two failure-carrying shapes the model uses in place of
    Java's nullable references and thrown exceptions. */
module Wrappers {

  /** A nullable reference: `None` stands for Java `null`. */
  datatype Option<+T> = None | Some(value: T)

  /** A call that either returns a value or throws. */
  datatype Result<+T, +E> = Ok(value: T) | Err(error: E)
}
